=== FILE: README.md ===
# Campus navigation core, modelled in Dafny

This project models the navigation core of a 3D campus map in Dafny:

- **Solver.** Landmarks are held in a JavaScript object keyed by landmark key. Consecutive landmarks are joined by `[from, to, weight]` triples. The solver runs Dijkstra's algorithm over this table to find a route. Triples are read in both directions, and the search stops early when the destination is selected.
- **3D view.** A marker plays along a curve through the route. It is driven by animation frames and by the Start, Stop and Reset buttons.
- **Two authoring tools.** The coordinate viewer and the easy marker record camera positions under typed names. They turn the recorded marks into a map config.
- **Directions list.** Lists the route's landmarks in order.
- **2D map.** Projects the landmarks, the triples and the route into an SVG picture.

Modules:

- `Wrappers` holds `Option`.
- `Graph` holds:
  - keys, nodes and triples;
  - the node table as an insertion-ordered object;
  - the cheapest triple joining two keys;
  - walks, walk costs, reachability and shortest distance.
- `Dijkstra` is the solver as written. It is proved to stop, and proved to return a simple route ending at the destination. When the destination is not reachable, or not a key of the table, the route is `[end]`; this, like every statement about keys here, is for keys that do not name a property of JavaScript's `Object.prototype` (see "Left out"). When it is reachable and no table key is the empty string, the route is a walk that starts at the start; if in addition no weight is negative, no walk is cheaper.
- `Playback` is the playback state machine. It covers single frames and runs of frames, with a closed form for runs. It also covers the buttons and a route change.
- `Landmarks` is shared by both authoring tools:
  - the name-to-key normalisation (lower-case, then each run of white space becomes `_`);
  - the node table built from the marks, where the last write wins and the first appearance fixes the order;
  - marker chains and reachability along them.
- `CoordinateViewer` and `EasyMarker` model the two tools. They cover marking, clearing and config generation. `EasyMarker` also has an end-to-end route between two marks of a generated map.
- `Directions` is the directions list.
- `Map2D` covers the bounds, the projection and the line segments of the 2D map.

Behaviour the model keeps exactly as the code has it, although a reader might expect otherwise:

- An unknown or unreachable destination gives the one-key route `[end]`, not an empty route. The view then has no curve to play.
- The reconstruction loop stops at a falsy key. So an empty-string key in the predecessor chain cuts the route short, and an empty destination gives `[]`. Every strong route property is therefore stated for tables without an empty key. Named marks never produce one (`Landmarks.NamedKeys`).
- Negative weights are not rejected. The shortest-route guarantee is proved under non-negative weights only.
- Start keeps the progress. On a finished player it therefore sets playing at progress 1, and the next frame finishes it again. It does not replay from the beginning.
- A new route rewinds the progress to 0 but leaves the playing flag as it was. The player is not forced to idle.
- Ties between equal distances go to the first key in the distance table's enumeration order. For keys that are not integer-like, that order is the node table's insertion order, with a start that is not a node key appended at the end. Integer-like keys are handled differently (see "Left out").

## Model

| member | source | states |
|---|---|---|
| Graph.MinWeight | src/navigation/dijkstra.js:29-40 | the cheapest weight among the triples joining two keys either way; its contract is carried by `Graph.MinWeightSpec` and `Graph.MinWeightSymmetric` |
| Graph.MinWeightSpec | src/navigation/dijkstra.js:29-40 | the cheapest weight between two keys is absent exactly when no triple joins them in either direction; otherwise it is the weight of a joining triple and at most that of every joining triple |
| Graph.MinWeightSymmetric | src/navigation/dijkstra.js:30-31 | the cheapest weight from `u` to `v` equals that from `v` to `u`, since each triple is read both ways |
| Dijkstra.TableOrder | src/navigation/dijkstra.js:6-11 | the distance table's keys are the node keys plus the start, without repeats, with the node keys first in insertion order |
| Dijkstra.SelectMin | src/navigation/dijkstra.js:14-22 | selection finds nothing exactly when every key with a finite distance is visited; otherwise it finds an unvisited key with the smallest distance, the first such key in table order |
| Dijkstra.RelaxEdge | src/navigation/dijkstra.js:29-40 | one triple's relaxation from the current key; its contract is carried by `Dijkstra.RelaxEdgeEffect` and `Dijkstra.RelaxEdgeUndirected` |
| Dijkstra.RelaxEdgeEffect | src/navigation/dijkstra.js:29-39 | one triple lowers at most the distance of the current key's unvisited neighbour in the table, and only strictly; it sets that neighbour's predecessor to the current key and changes nothing else |
| Dijkstra.RelaxEdgeUndirected | src/navigation/dijkstra.js:30-31 | a triple has the same effect whichever way round it is written |
| Dijkstra.SelfLoopIgnored | src/navigation/dijkstra.js:30-32 | a triple from the current key to itself changes nothing, because the neighbour is already visited |
| Dijkstra.RelaxAll | src/navigation/dijkstra.js:29-40 | relaxing the triples one by one in list order gives the closed form in which each neighbour gets the cheapest improving distance over its parallel triples |
| Dijkstra.RelaxAllEffect | src/navigation/dijkstra.js:29-40 | after relaxing from the current key, no distance has grown and visited keys are untouched; each changed predecessor is the current key; each unvisited neighbour's distance is at most the current distance plus the cheapest joining weight |
| Dijkstra.Visit | src/navigation/dijkstra.js:27-40 | visiting the selected minimum key adds exactly that key to the visited set and keeps the search invariant |
| Dijkstra.InvStep | src/navigation/dijkstra.js:17-40 | visiting the minimum key keeps the search invariant: every key with a distance is reachable; each predecessor was visited earlier and accounts for its key's distance through a cheapest joining triple; every unvisited key is relaxed from every visited key; with non-negative weights, every visited key sits at its shortest distance |
| Dijkstra.SelectedIsShortest | src/navigation/dijkstra.js:17-25 | under non-negative weights, the selected minimum key's distance is the shortest walk cost from the start |
| Dijkstra.ExhaustedUnreachable | src/navigation/dijkstra.js:24 | when selection finds nothing, the destination is not reachable from the start |
| Dijkstra.Round | src/navigation/dijkstra.js:13-41 | one pass of the selection loop keeps the invariant; it either stops at the destination or at exhaustion, or strictly shrinks the set of unvisited keys |
| Dijkstra.Settle | src/navigation/dijkstra.js:11-41 | the selection loop ends with the invariant holding, either with the destination selected at the smallest remaining distance or with no key left to select |
| Dijkstra.Reconstruct | src/navigation/dijkstra.js:43-51 | the rebuilt route is empty for an empty destination and otherwise ends at the destination; consecutive keys follow the predecessor table; no key repeats; no key is empty; its first key has no predecessor, or the empty one |
| Dijkstra.ShortestRoute | src/navigation/dijkstra.js:1-52 | the route is simple, ends at the destination and consecutive keys are joined by a triple; it has a step exactly when the destination is another reachable key; it then starts at the start and is a walk over known keys; with non-negative weights no walk is cheaper; otherwise it is `[end]` |
| Playback.Tick | src/components/Navigation3D.jsx:45-61 | a frame changes nothing unless playing along a curve; a playing frame never takes the progress past 1 and keeps playing exactly while the progress is below 1 |
| Playback.TickEffect | src/components/Navigation3D.jsx:45-61 | a frame changes nothing unless playing along a curve; with non-negative time and speed it never moves the marker back or past 1; after a playing frame, playing continues exactly while progress is below 1 |
| Playback.Start | src/components/Navigation3D.jsx:214-217 | Start keeps the progress and leaves the player playing exactly when it already was or the route has a curve |
| Playback.Stop | src/components/Navigation3D.jsx:234-235 | Stop pauses with the progress kept |
| Playback.Reset | src/components/Navigation3D.jsx:76-78 | Reset returns to progress 0, not playing, from any state |
| Playback.Rewind | src/components/Navigation3D.jsx:22-26 | a recomputed route sets the progress to 0 and keeps the playing flag |
| Playback.PausedFrozen | src/components/Navigation3D.jsx:45-46 | a paused or curve-less player is unchanged by any run of frames |
| Playback.StopResetFrozen | src/components/Navigation3D.jsx:45-46 | after Stop or Reset any run of frames changes nothing; a finished player stays finished |
| Playback.TickAllAdvances | src/components/Navigation3D.jsx:45-48 | a run of frames along a curve equals the reference run that advances by each frame's fraction of the curve length, capped at 1 |
| Playback.FractionsSum | src/components/Navigation3D.jsx:47 | the per-frame fractions add up to speed times total elapsed time over curve length |
| Playback.AdvanceClosedForm | src/components/Navigation3D.jsx:47-61 | the reference run reaches the initial progress plus the sum of the fractions, capped at 1, and is playing exactly while below 1 |
| Playback.TickAllClosedForm | src/components/Navigation3D.jsx:45-61 | while playing, a run of frames lands at the initial progress plus speed times total time over length, capped at 1; it is then playing exactly while below 1 |
| Playback.PlaysToEnd | src/components/Navigation3D.jsx:45-61 | once enough time has elapsed to cover the rest of the curve, the player is finished: progress exactly 1, not playing |
| Playback.ApplyValid | src/components/Navigation3D.jsx:22-61 | every admissible event keeps the progress within [0, 1]: button, frame or route change |
| Playback.RunValid | src/components/Navigation3D.jsx:22-61 | any run of admissible events keeps the progress within [0, 1] |
| Playback.ChangeRoute | src/components/Navigation3D.jsx:22-29 | a new selection rewinds to 0 and keeps the playing flag; the new route ends at the destination; when no table key and not the start is the empty string, it has a curve exactly when the destination is another key reachable from the start; the same start and destination give no curve |
| Landmarks.Collapse | src/components/CoordinateViewer.jsx:87 | `replace(/\s+/g, "_")`; its contract is carried by the `Landmarks.Collapse…` lemmas below |
| Landmarks.KeyOf | src/components/CoordinateViewer.jsx:87 | lower-casing, then collapsing white-space runs; its contract is carried by `Landmarks.KeyOfShape` |
| Landmarks.CollapseNoSpace | src/components/CoordinateViewer.jsx:87 | a normalised string contains no white space |
| Landmarks.CollapseIdentity | src/components/CoordinateViewer.jsx:87 | a string without white space is left unchanged |
| Landmarks.CollapseIdempotent | src/components/CoordinateViewer.jsx:87 | replacing white-space runs twice is replacing them once |
| Landmarks.CollapseLength | src/components/CoordinateViewer.jsx:87 | replacement never lengthens a string and empties only the empty string |
| Landmarks.CollapseRun | src/components/CoordinateViewer.jsx:87 | a whole run of white space, however long, becomes exactly one underscore |
| Landmarks.CollapseSingles | src/components/CoordinateViewer.jsx:87 | with no two white-space characters adjacent, the replacement is character by character |
| Landmarks.KeyOfShape | src/components/EasyMarker.jsx:79 | a name's key has no white space, is empty only for the empty name, and is its own key |
| Landmarks.PutAll | src/components/CoordinateViewer.jsx:86-94 | writing the keys one by one, each overwriting the last, gives a well-formed table |
| Landmarks.BuildNodes | src/components/EasyMarker.jsx:78-85 | the marker table is well formed; the `Landmarks.BuildNodes…` lemmas below give its keys, values and order |
| Landmarks.Gaps | src/components/CoordinateViewer.jsx:97-104 | one distance per consecutive pair of markers, gap `i - 1` being the distance from marker `i - 1` to marker `i` |
| Landmarks.PutAllKeys | src/components/CoordinateViewer.jsx:86-94 | the built table holds exactly the keys written |
| Landmarks.PutAllLast | src/components/CoordinateViewer.jsx:86-94 | every key is bound to the value of its last write |
| Landmarks.PutAllOrder | src/components/CoordinateViewer.jsx:86-94 | the table enumerates keys in order of their first write |
| Landmarks.BuildNodesKeys | src/components/CoordinateViewer.jsx:86-94 | the marker table holds a key exactly when some marker's name normalises to it |
| Landmarks.BuildNodesLast | src/components/EasyMarker.jsx:78-85 | a key is bound to the position of the last marker carrying it, labelled with that marker's original name |
| Landmarks.BuildNodesOrder | src/components/EasyMarker.jsx:78-85 | the marker table enumerates keys in order of first appearance among the markers |
| Landmarks.NamedKeys | src/components/CoordinateViewer.jsx:56-59 | markers with non-blank names give a table without the empty key |
| Landmarks.ChainReachable | src/components/CoordinateViewer.jsx:97-108 | along a chain of known keys joined pairwise by triples, every key reaches every other, forwards and backwards |
| CoordinateViewer.AddMarker | src/components/CoordinateViewer.jsx:55-70 | a blank name leaves everything unchanged; otherwise the list grows by exactly the new marker at the end, the earlier markers are kept and the name is cleared |
| CoordinateViewer.ClearAll | src/components/CoordinateViewer.jsx:293 | Clear All empties the list and keeps the typed name |
| CoordinateViewer.NamedInvariant | src/components/CoordinateViewer.jsx:55-70 | the initial state, marking and clearing all keep every stored name non-blank, so no marker's key is empty |
| CoordinateViewer.PairTriples | src/components/CoordinateViewer.jsx:97-108 | `n >= 2` keys give `2(n-1)` triples, fewer give none |
| CoordinateViewer.PairTriplesSpec | src/components/CoordinateViewer.jsx:97-108 | pair `i` of keys is joined forwards at position `2i` and backwards at `2i+1`, both weighted by the pair's gap |
| CoordinateViewer.PairTriplesAt | src/components/CoordinateViewer.jsx:97-108 | every triple joins some consecutive pair of keys, one way or the other, with that pair's gap |
| CoordinateViewer.PairEdges | src/components/CoordinateViewer.jsx:97-108 | `n >= 1` markers give `2(n-1)` triples, and no markers give none |
| CoordinateViewer.PairEdgesSpec | src/components/CoordinateViewer.jsx:97-108 | `n >= 1` markers give `2(n-1)` triples: pair `i` forwards at `2i` and backwards at `2i+1`, both weighted by the pair's distance |
| CoordinateViewer.PairEdgesAt | src/components/CoordinateViewer.jsx:97-108 | every triple joins some consecutive pair's keys, one way or the other, with that pair's distance |
| CoordinateViewer.GenerateConfig | src/components/CoordinateViewer.jsx:76-80 | a config is produced exactly when at least one marker exists |
| CoordinateViewer.GenerateConfigEndpoints | src/components/CoordinateViewer.jsx:86-108 | every triple's endpoints are keys of the generated table |
| CoordinateViewer.GenerateConfigNonNegative | src/components/CoordinateViewer.jsx:101-107 | with non-negative distances, every weight is non-negative |
| CoordinateViewer.GenerateConfigChain | src/components/CoordinateViewer.jsx:97-108 | every consecutive pair of marker keys is joined by a triple |
| CoordinateViewer.ConfigConnected | src/components/CoordinateViewer.jsx:76-108 | in a generated config every marker's key reaches every other's |
| EasyMarker.KeyDown | src/components/EasyMarker.jsx:19-30 | the space key with a non-blank name appends exactly the new mark and clears the name; any other key, or a blank name, changes nothing |
| EasyMarker.KeyDownAgrees | src/components/EasyMarker.jsx:19-30 | the space key does to the marks what the viewer's mark button does to its markers, and keeps every mark named |
| EasyMarker.ForwardTriples | src/components/EasyMarker.jsx:88-96 | `n >= 2` keys give `n-1` triples, fewer give none |
| EasyMarker.ForwardTriplesSpec | src/components/EasyMarker.jsx:88-96 | triple `i-1` runs from key `i-1` to key `i` with the pair's gap |
| EasyMarker.ForwardEdges | src/components/EasyMarker.jsx:88-96 | `n >= 1` marks give `n-1` triples, and no marks give none |
| EasyMarker.ForwardEdgesSpec | src/components/EasyMarker.jsx:88-96 | triple `i-1` runs from mark `i-1`'s key to mark `i`'s key with their distance |
| EasyMarker.GenerateJson | src/components/EasyMarker.jsx:74-97 | a map is always produced, with a well-formed table; it is empty for no marks |
| EasyMarker.GenerateJsonEndpoints | src/components/EasyMarker.jsx:78-96 | every triple of a generated map joins two keys of its node table |
| EasyMarker.SameTriples | src/components/EasyMarker.jsx:88-96 | for the same distance function, the forward-only triples give every pair of keys the same cheapest weight as the viewer's paired triples. The two tools really round differently (`toFixed(2)` in the viewer, `toFixed(1)` here), so this compares the shapes of the two configs, not their actual weights |
| EasyMarker.SameTriplesFor | src/components/EasyMarker.jsx:88-96 | over any keys and gaps, forward-only triples and paired triples give every pair of keys the same cheapest weight, because the solver reads each triple both ways |
| EasyMarker.ForwardNonNegative | src/components/EasyMarker.jsx:88-96 | with non-negative distances, every forward triple's weight is non-negative |
| EasyMarker.JsonConnected | src/components/EasyMarker.jsx:74-97 | in a generated map every marked key reaches every other |
| EasyMarker.RouteBetween | src/components/EasyMarker.jsx:74-97 | between two named marks of a generated map the solver returns a walk from the first mark's key to the second's; it has a step exactly when the keys differ, and with non-negative distances no walk is cheaper |
| Directions.FirstMissing | src/components/Directions.jsx:20-21 | the first key whose label lookup fails; its contract is carried by `Directions.FirstMissingSpec` |
| Directions.FirstMissingSpec | src/components/Directions.jsx:20-21 | the first missing key is absent exactly when all keys are present; otherwise every key before it is present |
| Directions.Render | src/components/Directions.jsx:3-33 | nothing is rendered exactly for an empty route; a list has one line per key and begins with "Start at" |
| Directions.RenderSpec | src/components/Directions.jsx:3-33 | nothing is rendered exactly for an empty route; the label lookup fails exactly when some key is missing, at the first one; otherwise there is one line per key showing its label |
| Directions.ListedShape | src/components/Directions.jsx:20-31 | the lines read "Start at", then "Go to" for each intermediate key, then "Reach"; a one-key route reads "Start at" alone |
| Directions.ListedCounts | src/components/Directions.jsx:20-31 | exactly one start line; one arrival line for two keys or more; one "Go to" line per key strictly between the ends |
| Directions.WalkListed | src/components/Directions.jsx:20-24 | a walk over known keys from a start in the table always renders, beginning with "Start at" and the start's label |
| Map2D.MinOfSpec | src/components/Map2D.jsx:15 | the minimum is one of the values and no value is below it |
| Map2D.MaxOfSpec | src/components/Map2D.jsx:16 | the maximum is one of the values and no value is above it |
| Map2D.Bounds | src/components/Map2D.jsx:9-18 | there are no bounds exactly when the table is empty |
| Map2D.BoundsSpec | src/components/Map2D.jsx:9-18 | an empty table has no bounds; otherwise every landmark lies at least 2 units inside the box, and on each side some landmark lies exactly 2 units inside |
| Map2D.MapX | src/components/Map2D.jsx:23 | the projected x is mapped back to the original x by the inverse projection |
| Map2D.MapY | src/components/Map2D.jsx:24 | the projected y is mapped back to the original y by the inverse projection |
| Map2D.Projection | src/components/Map2D.jsx:20-24 | x keeps its order and y is reversed; the box edges go to the picture edges; each unmap function inverts its projection both ways |
| Map2D.PictureMargins | src/components/Map2D.jsx:6-24 | the picture is at least 160 units wide and high, and every landmark is drawn at least 80 units inside each edge |
| Map2D.EdgeLines | src/components/Map2D.jsx:38-52 | when drawn, there is one line per triple |
| Map2D.EdgeLinesSpec | src/components/Map2D.jsx:38-52 | the triples' lines exist exactly when every endpoint is in the table; there is one per triple, from its `from` landmark to its `to` landmark |
| Map2D.PathLines | src/components/Map2D.jsx:55-70 | when drawn, there is one line per step of the route, none for fewer than two keys |
| Map2D.PathLinesSpec | src/components/Map2D.jsx:55-70 | the route's lines exist exactly when the route has fewer than two keys or all its keys are present; there is one line per step, and each starts where the previous one ends |
| Map2D.Draw | src/components/Map2D.jsx:5-93 | a picture is drawn only for a non-empty table; it has one dot per landmark and one line per triple |
| Map2D.DrawSpec | src/components/Map2D.jsx:5-93 | the picture is drawn exactly when the table is non-empty and no lookup fails; it has one dot per landmark in enumeration order, one line per triple and one per step |

## Left out

- The three.js curve is left out. The Catmull-Rom spline, `getLength`, `getPointAt`, and the camera's `lerp` and `lookAt` are foreign library calls. Playback takes the curve's arc length as a given positive number.
- The keyboard camera-movement loops and timers of the authoring tools are left out. They move the camera, and the camera position is a parameter of each marking action.
- Distances (`Math.sqrt`) and their rounding (`toFixed(2)` in the viewer, `toFixed(1)` in the easy marker) are not modelled, because floating point is outside the model. The distance between two marks is a parameter `dist`, so each tool is modelled with its own function.
- `Landmarks.LowerChar` lower-cases ASCII letters only. Full Unicode `toLowerCase` mappings are not modelled.
- I/O is left out: the clipboard, the JSON text, `Blob` and the download link, `alert` and `console.log`.
- The marker `id` built from `Date.now()` is left out, because no part of the core reads it.
- JavaScript enumerates integer-like keys (such as `"12"` or `"101"`) before all other keys, in ascending numeric order. The model enumerates every object in insertion order. For integer-like keys this differs from the program, so the difference reaches:
  - the key order of the generated node table and of its JSON;
  - the default start and destination of the 3D view (`nodeKeys[0]` and `nodeKeys[1]`, src/components/Navigation3D.jsx:9-11);
  - the order of the dots in the 2D map;
  - which of several equal-distance keys the solver selects first.
- `Dijkstra.TableOrder` gives insertion order, which is the program's order only when no key is integer-like. It also puts a start, or a node key, named `__proto__` into the distance table. The program's `distances[start] = 0` and `distances[node] = Infinity` (src/navigation/dijkstra.js:7, 11) ignore that name, so its `for…in` at line 17 never sees it.
- `Dijkstra.SelectMin` picks the first minimum in insertion order. With integer-like keys, the program can pick a different key of the same distance. A start or node key named `__proto__` is never selected by the program, because it never enters the program's distance table (see `Dijkstra.TableOrder`).
- `Map2D.DrawSpec` places the dots in insertion order. With integer-like keys the program draws them in its own order; the set of dots is the same.
- `Landmarks.PutAllOrder` holds as stated only when no key written is integer-like. For example, marks named "12" then "101" are enumerated by the program as "101", "12".
- `Landmarks.BuildNodesOrder` holds only when no marker's key is integer-like, for the same reason.
- `Dijkstra.ShortestRoute`: weights, distances and sums are exact reals, while the program adds IEEE doubles. When rounding changes a comparison, the program's route can differ. For example, with triples a–b 0.1, b–c 0.7 and a–c 0.8, the doubles give 0.1 + 0.7 < 0.8, so the program returns a, b, c. In exact arithmetic the sums tie, and the model returns a, c.
- `Playback.PlaysToEnd` uses exact real arithmetic, as do `Playback.TickAllClosedForm` and `Playback.AdvanceClosedForm`; the program accumulates progress in doubles. For example, ten frames of 0.1 s at speed 1 along a curve of length 1 add up to 0.9999999999999999 in doubles. The program is then still playing, while the model has finished.
- Playback assumes a positive curve length. A zero-length curve, and the division by it, are not modelled.
- React's deferred state updates are modelled as immediate. A recomputed route and the progress reset are applied as one step.
- The node table rendered by `Navigation3D` and `Map2D` is a parameter, standing in for the bundled map file.
- `Map2D.Bounds`: with an empty table the source computes infinite bounds and non-finite coordinates. The model returns no bounds and draws nothing.
- `Dijkstra.Reconstruct`: its precondition that predecessors have strictly smaller rank is an invariant of the search. It is not checked by the source. It is what makes the reconstruction loop terminate.
- `Dijkstra.Reconstruct` treats a key without a predecessor entry as the end of the route. The program's `previous` is a plain object (src/navigation/dijkstra.js:3), so `previous[current]` at line 48 finds an inherited value for a key such as `constructor`, `toString` or `__proto__`. For example, `Reconstruct(map[], "constructor", …)` gives `["constructor"]`, while the program's loop gives `[Object, "constructor"]`.
- `Directions.RenderSpec`: a key missing from the table makes the source throw a TypeError while rendering. The model reports the first missing key instead. Keys naming `Object.prototype` properties behave differently again, as described below.
- The program's tables are plain JavaScript objects, which inherit the properties of `Object.prototype`: `constructor`, `__proto__`, `toString`, `toLocaleString`, `valueOf`, `hasOwnProperty`, `isPrototypeOf`, `propertyIsEnumerable`, `__defineGetter__`, `__defineSetter__`, `__lookupGetter__` and `__lookupSetter__`. The model's tables are maps with no such inheritance. Keys built from marks are lower-cased, so among them only `constructor` and `__proto__` can arise. The members below are stated, and hold in the program, only for keys that are not one of these names.
- `Dijkstra.ShortestRoute`: reconstruction reads `previous[current]`, and `previous` starts as `{}` (src/navigation/dijkstra.js:3, 46-48). For a destination named after an inherited property, it reads the inherited value instead of nothing. With table `{A}`, no triples, start `A` and destination `constructor`, the program returns `[Object, "constructor"]`, where the model returns `["constructor"]`. The same happens when start and destination are the same such name. In addition, `distances["__proto__"] = 0` (line 11) is ignored, so a start named `__proto__` is never selected.
- `Playback.ChangeRoute` inherits the same difference: for such a destination, the program's route has two entries, so it counts as having a curve.
- `Landmarks.PutAllLast`: for a written key `__proto__`, it states the key is present and bound to its last value. In the program the write sets the object's prototype instead, so the table has no such key (see the next line).
- `Landmarks.BuildNodesLast`: likewise, a marker named "__proto__" has its node bound under that key in the model, but not in the program's table.
- `Landmarks.PutAllKeys`: the write `nodes["__proto__"] = …` (src/components/CoordinateViewer.jsx:88, src/components/EasyMarker.jsx:80) replaces the object's prototype and creates no own key. So a key `__proto__` that was written is absent from the program's table.
- `Landmarks.PutAllOrder`: the model's order lists every key written, while the program's enumeration omits `__proto__`.
- `Landmarks.BuildNodesOrder`: likewise, a marker key `__proto__` is in the model's order and not in the program's.
- `BuildNodesKeys` (`Landmarks.BuildNodesKeys`): a marker named "__proto__" (or "__PROTO__") gives no key in the program's table.
- `CoordinateViewer.GenerateConfigEndpoints`: for a marker named "__proto__", the program's triples name a key that its table, and the JSON written from it, lack.
- `EasyMarker.GenerateJsonEndpoints`: the same holds for a mark named "__proto__" in the easy marker.
- `ConfigConnected` (`CoordinateViewer.ConfigConnected`): a `__proto__` marker key is unknown to the program's table. It has no distance and is never relaxed, so in the program it does not reach the other markers.
- `JsonConnected` (`EasyMarker.JsonConnected`): the same holds for a mark named "__proto__" in the easy marker's map.
- `RouteBetween` (`EasyMarker.RouteBetween`): for a first mark named "__proto__", the program ignores `distances["__proto__"] = 0` (src/navigation/dijkstra.js:11), so its route does not start at that key. For a second mark of that name, the program's route is `[Object.prototype, "__proto__"]`.
- `Directions.FirstMissing`: a route key such as `toString` that the table lacks is found as an inherited function (src/components/Directions.jsx:21), so the program does not treat it as missing.
- `Directions.RenderSpec`: for such a key the program renders an empty label, where the model reports the key as missing.
- `Map2D.EdgeLinesSpec`: an endpoint such as `toString` that the table lacks is found as an inherited function (src/components/Map2D.jsx:39-40). The program draws a line with NaN coordinates, where the model draws nothing.
- `PathLinesSpec` (`Map2D.PathLinesSpec`): the same holds for a route key such as `toString` (src/components/Map2D.jsx:57-58).
- `DrawSpec` (`Map2D.DrawSpec`): such a key likewise draws NaN lines in the program instead of failing the whole picture.

=== FILE: coordinate_viewer.dfy ===
/**
 * The coordinate viewer: the user types a location name and marks the current camera
 * position under it; the marked list can be cleared, or turned into a map config whose
 * triples join consecutive markers in both directions.
 *
 * The camera position and the rounded straight-line distance between two markers are
 * given (`dist`); the alert, clipboard and JSON text are not modelled.
 */
module CoordinateViewer {
  import opened Wrappers
  import opened Graph
  import opened Landmarks
  import Dijkstra

  /** The marked list and the name field. */
  datatype Viewer = Viewer(markers: seq<Marker>, markerName: string)

  const Initial := Viewer([], "")

  /** `addMarkerAtCamera`: refused while the name is blank; otherwise the marker is appended
      and the name field cleared. */
  function AddMarker(v: Viewer, x: real, y: real, z: real): (r: Viewer)
    ensures Blank(v.markerName) ==> r == v
    ensures !Blank(v.markerName) ==>
              && |r.markers| == |v.markers| + 1 && r.markers[..|v.markers|] == v.markers
              && r.markers[|v.markers|] == Marker(v.markerName, x, y, z)
              && r.markerName == ""
  {
    if Blank(v.markerName) then v
    else Viewer(v.markers + [Marker(v.markerName, x, y, z)], "")
  }

  /** The Clear All button. */
  function ClearAll(v: Viewer): (r: Viewer)
    ensures r.markers == [] && r.markerName == v.markerName
  {
    v.(markers := [])
  }

  /** The buttons keep every stored marker named, so no marker's key is the empty string. */
  lemma NamedInvariant(v: Viewer, x: real, y: real, z: real)
    requires Named(v.markers)
    ensures Named(Initial.markers)
    ensures Named(AddMarker(v, x, y, z).markers)
    ensures Named(ClearAll(v).markers)
    ensures forall i :: 0 <= i < |v.markers| ==> KeyOf(v.markers[i].name) != ""
  {
    var r := AddMarker(v, x, y, z);
    forall i | 0 <= i < |r.markers|
      ensures !Blank(r.markers[i].name)
    {
      if i < |v.markers| {
        assert r.markers[i] == r.markers[..|v.markers|][i];
      }
    }
    forall i | 0 <= i < |v.markers|
      ensures KeyOf(v.markers[i].name) != ""
    {
      KeyOfShape(v.markers[i].name);
    }
  }

  /** For each consecutive pair of keys, the triple forwards and then the same triple
      backwards, weighted by the pair's gap. */
  function PairTriples(ks: seq<Key>, ws: seq<real>): (es: seq<Edge>)
    requires |ks| <= |ws| + 1
    ensures |es| == (if |ks| < 2 then 0 else 2 * (|ks| - 1))
    decreases |ks|
  {
    if |ks| < 2 then []
    else
      var a, b, w := ks[|ks| - 2], ks[|ks| - 1], ws[|ks| - 2];
      PairTriples(ks[..|ks| - 1], ws) + [Edge(a, b, w), Edge(b, a, w)]
  }

  /** Pair `i` sits at positions `2i` (forwards) and `2i + 1` (backwards). */
  lemma {:induction false} PairTriplesSpec(ks: seq<Key>, ws: seq<real>)
    requires |ks| <= |ws| + 1
    ensures forall i :: 1 <= i < |ks| ==>
              && PairTriples(ks, ws)[2 * i - 2] == Edge(ks[i - 1], ks[i], ws[i - 1])
              && PairTriples(ks, ws)[2 * i - 1] == Edge(ks[i], ks[i - 1], ws[i - 1])
    decreases |ks|
  {
    if |ks| >= 2 {
      var init := ks[..|ks| - 1];
      PairTriplesSpec(init, ws);
      assert forall i :: 0 <= i < |init| ==> init[i] == ks[i];
    }
  }

  /** Each triple joins some consecutive pair of keys, one way or the other, with the
      pair's gap. */
  lemma {:induction false} PairTriplesAt(ks: seq<Key>, ws: seq<real>, t: int) returns (i: int)
    requires |ks| <= |ws| + 1 && 0 <= t < |PairTriples(ks, ws)|
    ensures 1 <= i < |ks|
    ensures var e := PairTriples(ks, ws)[t];
            && Connects(e, ks[i - 1], ks[i]) && e.weight == ws[i - 1]
    decreases |ks|
  {
    var init := ks[..|ks| - 1];
    var ps := PairTriples(init, ws);
    if t < |ps| {
      i := PairTriplesAt(init, ws, t);
      assert PairTriples(ks, ws)[t] == ps[t];
      assert init[i - 1] == ks[i - 1] && init[i] == ks[i];
    } else {
      i := |ks| - 1;
    }
  }

  /** The viewer's triples: consecutive markers' keys, both ways, with their distance. */
  function PairEdges(ms: seq<Marker>, dist: (Marker, Marker) -> real): (es: seq<Edge>)
    ensures |ms| >= 1 ==> |es| == 2 * (|ms| - 1)
    ensures |ms| == 0 ==> es == []
  {
    PairTriples(Keys(ms), Gaps(ms, dist))
  }

  /** Pair `i` sits at positions `2i` (forwards) and `2i + 1` (backwards), both with the
      distance between the two markers. */
  lemma PairEdgesSpec(ms: seq<Marker>, dist: (Marker, Marker) -> real)
    ensures forall i :: 1 <= i < |ms| ==>
              && PairEdges(ms, dist)[2 * i - 2] == Edge(KeyOf(ms[i - 1].name), KeyOf(ms[i].name), dist(ms[i - 1], ms[i]))
              && PairEdges(ms, dist)[2 * i - 1] == Edge(KeyOf(ms[i].name), KeyOf(ms[i - 1].name), dist(ms[i - 1], ms[i]))
  {
    PairTriplesSpec(Keys(ms), Gaps(ms, dist));
  }

  /** `generateConfig`: nothing for an empty list, otherwise the node table and the paired
      triples. */
  function GenerateConfig(ms: seq<Marker>, dist: (Marker, Marker) -> real): (r: Option<Config>)
    ensures r.None? <==> |ms| == 0
  {
    if |ms| == 0 then None
    else Some(Config(BuildNodes(ms), PairEdges(ms, dist)))
  }

  /** Each triple belongs to one consecutive pair of markers: it joins the pair's two keys,
      one way or the other, with the distance between them. */
  lemma PairEdgesAt(ms: seq<Marker>, dist: (Marker, Marker) -> real, t: int) returns (i: int)
    requires 0 <= t < |PairEdges(ms, dist)|
    ensures 1 <= i < |ms|
    ensures var e := PairEdges(ms, dist)[t];
            && Connects(e, KeyOf(ms[i - 1].name), KeyOf(ms[i].name))
            && e.weight == dist(ms[i - 1], ms[i])
  {
    i := PairTriplesAt(Keys(ms), Gaps(ms, dist), t);
  }

  /** Every triple's endpoints are keys of the generated node table. */
  lemma GenerateConfigEndpoints(ms: seq<Marker>, dist: (Marker, Marker) -> real)
    requires |ms| > 0
    ensures var c := GenerateConfig(ms, dist).value;
            forall t :: 0 <= t < |c.edges| ==> c.edges[t].from in c.nodes.entries && c.edges[t].to in c.nodes.entries
  {
    var es := PairEdges(ms, dist);
    BuildNodesKeys(ms);
    forall t | 0 <= t < |es|
      ensures es[t].from in BuildNodes(ms).entries && es[t].to in BuildNodes(ms).entries
    {
      var i := PairEdgesAt(ms, dist, t);
      assert KeyOf(ms[i - 1].name) in BuildNodes(ms).entries;
      assert KeyOf(ms[i].name) in BuildNodes(ms).entries;
    }
  }

  /** With non-negative distances every weight in the config is non-negative. */
  lemma GenerateConfigNonNegative(ms: seq<Marker>, dist: (Marker, Marker) -> real)
    requires |ms| > 0
    requires forall a, b :: dist(a, b) >= 0.0
    ensures NonNegative(GenerateConfig(ms, dist).value.edges)
  {
    var es := PairEdges(ms, dist);
    forall t | 0 <= t < |es|
      ensures es[t].weight >= 0.0
    {
      var i := PairEdgesAt(ms, dist, t);
    }
  }

  /** The markers form a linked chain: each consecutive pair is joined by a triple. */
  lemma GenerateConfigChain(ms: seq<Marker>, dist: (Marker, Marker) -> real)
    requires |ms| > 0
    ensures ChainLinked(GenerateConfig(ms, dist).value.edges, Keys(ms))
  {
    var es := PairEdges(ms, dist);
    var ks := Keys(ms);
    PairTriplesSpec(ks, Gaps(ms, dist));
    forall i | 1 <= i < |ms|
      ensures MinWeight(es, ks[i - 1], ks[i]).Some?
    {
      MinWeightSpec(es, ks[i - 1], ks[i]);
      assert Connects(es[2 * i - 2], ks[i - 1], ks[i]);
    }
  }

  /** In a generated config every marker's key reaches every other's. */
  lemma ConfigConnected(ms: seq<Marker>, dist: (Marker, Marker) -> real, i: int, j: int)
    requires 0 <= i < |ms| && 0 <= j < |ms|
    ensures var c := GenerateConfig(ms, dist).value;
            Reachable(c.edges, Dijkstra.Known(c.nodes, KeyOf(ms[i].name)), KeyOf(ms[i].name), KeyOf(ms[j].name))
  {
    var c := GenerateConfig(ms, dist).value;
    GenerateConfigChain(ms, dist);
    BuildNodesKeys(ms);
    var ks := Keys(ms);
    forall t | 0 <= t < |ks|
      ensures ks[t] in Dijkstra.Known(c.nodes, ks[i])
    {
      assert KeyOf(ms[t].name) == ks[t];
    }
    ChainReachable(c.edges, Dijkstra.Known(c.nodes, ks[i]), ks, i, j);
  }
}

=== FILE: dijkstra.dfy ===
/** Dijkstra's shortest-route search over the landmark graph, as the navigation
    code runs it: a linear scan for the nearest unvisited key, an early exit when
    that key is the destination, relaxation of every triple touching the current
    key read in either direction, and reconstruction by predecessor pointers. */
module Dijkstra {
  import opened Wrappers
  import opened Graph

  /** The working tables of the search. A key of the distance table that is absent
      from `dist` is at Infinity; a key absent from `prev` has a null (or undefined)
      predecessor. */
  datatype Search = Search(dist: map<Key, real>, prev: map<Key, Key>, visited: set<Key>)

  /** The keys of the distance table: every node key, and `start`, which the
      search writes into the table even when it is not a node key. */
  function Known(nodes: NodeMap, start: Key): set<Key> {
    nodes.entries.Keys + {start}
  }

  /** The enumeration order of the distance table. */
  function TableOrder(nodes: NodeMap, start: Key): (order: seq<Key>)
    requires nodes.Valid()
    ensures Distinct(order)
    ensures forall k :: k in order <==> k in Known(nodes, start)
    ensures |order| >= |nodes.order| && order[..|nodes.order|] == nodes.order
  {
    if start in nodes.entries then nodes.order else nodes.order + [start]
  }

  /** An unvisited key at a finite distance. */
  predicate Candidate(st: Search, k: Key) {
    k in st.dist && k !in st.visited
  }

  /** The selection scan: the unvisited key with the smallest finite distance, the
      first such key in table order on a tie, or None when there is none. */
  method SelectMin(order: seq<Key>, st: Search) returns (r: Option<Key>)
    requires Distinct(order)
    ensures r.None? <==> forall i :: 0 <= i < |order| ==> !Candidate(st, order[i])
    ensures r.Some? ==> r.value in order && Candidate(st, r.value)
    ensures r.Some? ==> forall i :: 0 <= i < |order| && Candidate(st, order[i]) ==> st.dist[r.value] <= st.dist[order[i]]
    ensures r.Some? ==> forall i, j :: 0 <= i < j < |order| && order[j] == r.value && Candidate(st, order[i]) ==>
                                         st.dist[r.value] < st.dist[order[i]]
  {
    r := None;
    ghost var at := 0;
    var i := 0;
    while i < |order|
      invariant 0 <= i <= |order|
      invariant r.None? <==> forall k :: 0 <= k < i ==> !Candidate(st, order[k])
      invariant r.Some? ==> 0 <= at < i && order[at] == r.value && Candidate(st, r.value)
      invariant r.Some? ==> forall k :: 0 <= k < i && Candidate(st, order[k]) ==> st.dist[r.value] <= st.dist[order[k]]
      invariant r.Some? ==> forall k :: 0 <= k < at && Candidate(st, order[k]) ==> st.dist[r.value] < st.dist[order[k]]
    {
      var k := order[i];
      if k !in st.visited && k in st.dist && (r.None? || st.dist[k] < st.dist[r.value]) {
        r := Some(k);
        at := i;
      }
      i := i + 1;
    }
  }

  /** The endpoint of `e` that is not `u` (or `u` itself for a self-loop). */
  function Other(e: Edge, u: Key): Key {
    if e.from == u then e.to else e.from
  }

  /** One call of the per-triple relaxation while `u` is being processed. */
  function RelaxEdge(known: set<Key>, st: Search, u: Key, e: Edge): Search
    requires u in st.dist
  {
    if e.from != u && e.to != u then st
    else
      var v := Other(e, u);
      if v in st.visited then st
      else
        var nd := st.dist[u] + e.weight;
        if v in known && (v !in st.dist || nd < st.dist[v]) then
          Search(st.dist[v := nd], st.prev[v := u], st.visited)
        else st
  }

  /** What one relaxation may change: only the far endpoint `v` of a triple touching `u`,
      only when `v` is a known unvisited key, and only by strictly lowering its distance,
      in which case `u` becomes its predecessor. */
  lemma RelaxEdgeEffect(known: set<Key>, st: Search, u: Key, e: Edge)
    requires u in st.dist
    ensures var r := RelaxEdge(known, st, u, e);
            && r.visited == st.visited
            && (forall k :: k in st.dist ==> k in r.dist && r.dist[k] <= st.dist[k])
            && (forall k :: k in r.prev && (k !in st.prev || r.prev[k] != st.prev[k]) ==>
                  r.prev[k] == u && k in known && k !in st.visited && Connects(e, u, k))
            && (r != st ==> var v := Other(e, u);
                  && Connects(e, u, v) && v in known && v !in st.visited
                  && r.dist == st.dist[v := st.dist[u] + e.weight] && r.prev == st.prev[v := u]
                  && (v in st.dist ==> r.dist[v] < st.dist[v]))
  {
  }

  /** A triple is read in both directions: writing it either way round has the same effect. */
  lemma RelaxEdgeUndirected(known: set<Key>, st: Search, u: Key, a: Key, b: Key, w: real)
    requires u in st.dist
    ensures RelaxEdge(known, st, u, Edge(a, b, w)) == RelaxEdge(known, st, u, Edge(b, a, w))
  {
  }

  /** A self-loop never relaxes the key being processed, which is already visited. */
  lemma SelfLoopIgnored(known: set<Key>, st: Search, u: Key, w: real)
    requires u in st.dist && u in st.visited
    ensures RelaxEdge(known, st, u, Edge(u, u, w)) == st
  {
  }

  /** Processing `u` strictly improves `v`: `v` is a known unvisited key joined to `u`
      and the cheapest such triple beats `v`'s tentative distance. */
  predicate Improves(known: set<Key>, es: seq<Edge>, st: Search, u: Key, v: Key)
    requires u in st.dist
  {
    && v in known && v !in st.visited && MinWeight(es, u, v).Some?
    && (v !in st.dist || st.dist[u] + MinWeight(es, u, v).value < st.dist[v])
  }

  /** The keys that relaxing the triples of `es` around `u` improves. */
  function Improved(known: set<Key>, es: seq<Edge>, st: Search, u: Key): set<Key>
    requires u in st.dist
  {
    set v | v in known && Improves(known, es, st, u, v)
  }

  /** The effect of relaxing all triples of `es` around a visited key `u`, stated at once:
      each improved key moves to the distance through `u`'s cheapest triple and gets `u`
      as predecessor; everything else is left alone. */
  function RelaxAllSpec(known: set<Key>, es: seq<Edge>, st: Search, u: Key): Search
    requires u in st.dist && u in st.visited
  {
    var imp := Improved(known, es, st, u);
    Search(map v | v in st.dist.Keys + imp :: if v in imp then st.dist[u] + MinWeight(es, u, v).value else st.dist[v],
           map v | v in st.prev.Keys + imp :: if v in imp then u else st.prev[v],
           st.visited)
  }

  /** The tables after relaxing around `u`, key by key. */
  lemma RelaxAllAt(known: set<Key>, es: seq<Edge>, st: Search, u: Key, w: Key)
    requires u in st.dist && u in st.visited
    ensures var r := RelaxAllSpec(known, es, st, u);
            var imp := Improved(known, es, st, u);
            && r.visited == st.visited
            && (w in r.dist <==> w in st.dist || w in imp)
            && (w in r.prev <==> w in st.prev || w in imp)
            && (w in imp ==> r.dist[w] == st.dist[u] + MinWeight(es, u, w).value && r.prev[w] == u)
            && (w !in imp && w in st.dist ==> r.dist[w] == st.dist[w])
            && (w !in imp && w in st.prev ==> r.prev[w] == st.prev[w])
            && (w in imp <==> w in known && Improves(known, es, st, u, w))
  {
  }

  /** What relaxing around `u` promises: distances only decrease, visited keys are not
      touched, a predecessor changes only on a strict improvement and then to `u`, and
      every known unvisited neighbour ends within one cheapest triple of `u`. */
  lemma RelaxAllEffect(known: set<Key>, es: seq<Edge>, st: Search, u: Key)
    requires u in st.dist && u in st.visited
    ensures var r := RelaxAllSpec(known, es, st, u);
            && r.visited == st.visited
            && (forall v :: v in st.dist ==> v in r.dist && r.dist[v] <= st.dist[v])
            && (forall v :: v in st.visited && v in st.dist ==> r.dist[v] == st.dist[v])
            && (forall v :: v in st.visited ==> (v in r.prev <==> v in st.prev))
            && (forall v :: v in r.prev && (v !in st.prev || r.prev[v] != st.prev[v]) ==>
                  && r.prev[v] == u && v in r.dist && v !in st.visited
                  && (v !in st.dist || r.dist[v] < st.dist[v]))
            && (forall v :: v in known && v !in st.visited && MinWeight(es, u, v).Some? ==>
                  v in r.dist && r.dist[v] <= st.dist[u] + MinWeight(es, u, v).value)
  {
    var r := RelaxAllSpec(known, es, st, u);
    forall v ensures
      && (v in st.dist ==> v in r.dist && r.dist[v] <= st.dist[v])
      && (v in st.visited && v in st.dist ==> r.dist[v] == st.dist[v])
      && (v in st.visited ==> (v in r.prev <==> v in st.prev))
      && (v in r.prev && (v !in st.prev || r.prev[v] != st.prev[v]) ==>
            && r.prev[v] == u && v in r.dist && v !in st.visited
            && (v !in st.dist || r.dist[v] < st.dist[v]))
      && (v in known && v !in st.visited && MinWeight(es, u, v).Some? ==>
            v in r.dist && r.dist[v] <= st.dist[u] + MinWeight(es, u, v).value)
    {
      RelaxAllAt(known, es, st, u, v);
    }
  }

  lemma RelaxAllEmpty(known: set<Key>, st: Search, u: Key)
    requires u in st.dist && u in st.visited
    ensures RelaxAllSpec(known, [], st, u) == st
  {
    var r := RelaxAllSpec(known, [], st, u);
    assert Improved(known, [], st, u) == {};
    assert r.dist == st.dist;
    assert r.prev == st.prev;
  }

  /** Agreement of two searches at one key. */
  ghost predicate AgreeAt(a: Search, b: Search, w: Key) {
    && (w in a.dist <==> w in b.dist) && (w in a.dist ==> a.dist[w] == b.dist[w])
    && (w in a.prev <==> w in b.prev) && (w in a.prev ==> a.prev[w] == b.prev[w])
  }

  /** Key by key, one more relaxation after the triples of `es` agrees with the closed
      form for `es + [e]`. */
  lemma RelaxStepAt(known: set<Key>, es: seq<Edge>, e: Edge, st: Search, u: Key, w: Key)
    requires u in st.dist && u in st.visited
    ensures AgreeAt(RelaxEdge(known, RelaxAllSpec(known, es, st, u), u, e), RelaxAllSpec(known, es + [e], st, u), w)
  {
    var es' := es + [e];
    var s := RelaxAllSpec(known, es, st, u);
    RelaxAllAt(known, es, st, u, u);
    var a := RelaxEdge(known, s, u, e);
    var b := RelaxAllSpec(known, es', st, u);
    RelaxAllAt(known, es, st, u, w);
    RelaxAllAt(known, es', st, u, w);
    MinWeightSnoc(es, e, u, w);
    if !Connects(e, u, w) {
      RelaxStepFar(known, es, e, st, u, w);
    } else if w in st.visited || w !in known {
      RelaxStepBlocked(known, es, e, st, u, w);
    } else {
      RelaxStepNear(known, es, e, st, u, w);
    }
  }

  /** The case of `RelaxStepAt` where `e` does not join `u` and `w`. */
  lemma RelaxStepFar(known: set<Key>, es: seq<Edge>, e: Edge, st: Search, u: Key, w: Key)
    requires u in st.dist && u in st.visited
    requires !Connects(e, u, w)
    ensures AgreeAt(RelaxEdge(known, RelaxAllSpec(known, es, st, u), u, e), RelaxAllSpec(known, es + [e], st, u), w)
  {
    var s := RelaxAllSpec(known, es, st, u);
    RelaxAllAt(known, es, st, u, u);
    RelaxEdgeUntouched(known, s, u, e, w);
    ClosedFormUntouched(known, es, e, st, u, w);
  }

  /** A triple that does not join `u` and `w` leaves `w` alone. */
  lemma RelaxEdgeUntouched(known: set<Key>, st: Search, u: Key, e: Edge, w: Key)
    requires u in st.dist && !Connects(e, u, w)
    ensures AgreeAt(RelaxEdge(known, st, u, e), st, w)
  {
    RelaxEdgeEffect(known, st, u, e);
    if RelaxEdge(known, st, u, e) != st {
      assert Other(e, u) != w;
    }
  }

  /** Adding a triple that does not join `u` and `w` does not change the closed form at `w`. */
  lemma ClosedFormUntouched(known: set<Key>, es: seq<Edge>, e: Edge, st: Search, u: Key, w: Key)
    requires u in st.dist && u in st.visited && !Connects(e, u, w)
    ensures AgreeAt(RelaxAllSpec(known, es, st, u), RelaxAllSpec(known, es + [e], st, u), w)
  {
    RelaxAllAt(known, es, st, u, w);
    RelaxAllAt(known, es + [e], st, u, w);
    MinWeightSnoc(es, e, u, w);
  }

  /** The case of `RelaxStepAt` where `e` joins `u` to a visited or unknown key `w`. */
  lemma RelaxStepBlocked(known: set<Key>, es: seq<Edge>, e: Edge, st: Search, u: Key, w: Key)
    requires u in st.dist && u in st.visited
    requires Connects(e, u, w) && (w in st.visited || w !in known)
    ensures AgreeAt(RelaxEdge(known, RelaxAllSpec(known, es, st, u), u, e), RelaxAllSpec(known, es + [e], st, u), w)
  {
    var s := RelaxAllSpec(known, es, st, u);
    RelaxAllAt(known, es, st, u, u);
    RelaxAllAt(known, es, st, u, w);
    RelaxAllAt(known, es + [e], st, u, w);
    assert Other(e, u) == w;
    assert RelaxEdge(known, s, u, e) == s;
  }

  /** The case of `RelaxStepAt` where `e` joins `u` to a known unvisited key `w`. */
  lemma RelaxStepNear(known: set<Key>, es: seq<Edge>, e: Edge, st: Search, u: Key, w: Key)
    requires u in st.dist && u in st.visited
    requires Connects(e, u, w) && w !in st.visited && w in known
    ensures AgreeAt(RelaxEdge(known, RelaxAllSpec(known, es, st, u), u, e), RelaxAllSpec(known, es + [e], st, u), w)
  {
    var es' := es + [e];
    var s := RelaxAllSpec(known, es, st, u);
    RelaxAllAt(known, es, st, u, u);
    var a := RelaxEdge(known, s, u, e);
    var b := RelaxAllSpec(known, es', st, u);
    RelaxAllAt(known, es, st, u, w);
    RelaxAllAt(known, es', st, u, w);
    MinWeightSnoc(es, e, u, w);
    var d := st.dist[u];
    assert Other(e, u) == w;
    if w !in s.dist || d + e.weight < s.dist[w] {
      assert a.dist == s.dist[w := d + e.weight] && a.prev == s.prev[w := u];
      assert MinWeight(es', u, w) == Some(e.weight);
      assert Improves(known, es', st, u, w);
    } else {
      assert a == s;
      assert Improves(known, es', st, u, w) <==> Improves(known, es, st, u, w);
      if Improves(known, es, st, u, w) {
        assert MinWeight(es', u, w) == MinWeight(es, u, w);
      }
    }
  }

  /** Relaxing one more triple after the triples of `es` gives the closed form for `es + [e]`. */
  lemma RelaxStep(known: set<Key>, es: seq<Edge>, e: Edge, st: Search, u: Key)
    requires u in st.dist && u in st.visited
    ensures RelaxEdge(known, RelaxAllSpec(known, es, st, u), u, e) == RelaxAllSpec(known, es + [e], st, u)
  {
    var a := RelaxEdge(known, RelaxAllSpec(known, es, st, u), u, e);
    var b := RelaxAllSpec(known, es + [e], st, u);
    forall w
      ensures (w in a.dist <==> w in b.dist) && (w in a.dist ==> a.dist[w] == b.dist[w])
      ensures (w in a.prev <==> w in b.prev) && (w in a.prev ==> a.prev[w] == b.prev[w])
    {
      RelaxStepAt(known, es, e, st, u, w);
    }
    MapExtensional(a.dist, b.dist);
    MapExtensional(a.prev, b.prev);
  }

  lemma MapExtensional<V>(m1: map<Key, V>, m2: map<Key, V>)
    requires forall k :: k in m1 <==> k in m2
    requires forall k :: k in m1 ==> m1[k] == m2[k]
    ensures m1 == m2
  {
  }

  /** Relaxation of every triple touching `u`, one triple at a time, in list order. */
  method RelaxAll(known: set<Key>, edges: seq<Edge>, st: Search, u: Key) returns (r: Search)
    requires u in st.dist && u in st.visited
    ensures r == RelaxAllSpec(known, edges, st, u)
  {
    RelaxAllEmpty(known, st, u);
    assert edges[..0] == [];
    r := st;
    var j := 0;
    while j < |edges|
      invariant 0 <= j <= |edges|
      invariant r == RelaxAllSpec(known, edges[..j], st, u)
    {
      RelaxAllAt(known, edges[..j], st, u, u);
      RelaxStep(known, edges[..j], edges[j], st, u);
      assert edges[..j + 1] == edges[..j] + [edges[j]];
      var next := RelaxEdge(known, r, u, edges[j]);
      assert next == RelaxAllSpec(known, edges[..j + 1], st, u);
      r := next;
      j := j + 1;
    }
    assert edges[..|edges|] == edges;
  }

  // ---------------------------------------------------------------------------
  // The search invariant

  function RankOf(rank: map<Key, nat>, n: nat, v: Key): nat {
    if v in rank then rank[v] else n
  }

  /** Set-level facts about the tables. */
  ghost predicate Shape(known: set<Key>, s: Key, e: Key, st: Search) {
    && s in known
    && st.dist.Keys <= known && st.prev.Keys <= st.dist.Keys && st.visited <= st.dist.Keys
    && e !in st.visited
    && s in st.dist && st.dist[s] == 0.0 && s !in st.prev
    && (s !in st.visited ==> st.visited == {} && st.dist.Keys == {s})
    && (forall v :: v in st.dist && v != s ==> v in st.prev)
  }

  /** `rank` numbers the visited keys in visiting order, all below `n`. */
  ghost predicate Ranked(st: Search, rank: map<Key, nat>, n: nat) {
    rank.Keys == st.visited && forall v :: v in rank ==> rank[v] < n
  }

  /** Every predecessor was visited before the key pointing to it, is joined to it, and
      accounts for its distance through the cheapest joining triple. */
  ghost predicate PrevLinks(es: seq<Edge>, st: Search, rank: map<Key, nat>, n: nat) {
    forall v :: v in st.prev ==>
      && v in st.dist && st.prev[v] in st.visited && st.prev[v] in st.dist
      && MinWeight(es, st.prev[v], v).Some?
      && st.dist[v] == st.dist[st.prev[v]] + MinWeight(es, st.prev[v], v).value
      && RankOf(rank, n, st.prev[v]) < RankOf(rank, n, v)
  }

  /** Every triple from a visited key to a known unvisited key has been relaxed. */
  ghost predicate Relaxed(known: set<Key>, es: seq<Edge>, st: Search) {
    forall x, v :: x in st.visited && v in known && v !in st.visited && MinWeight(es, x, v).Some? ==>
      x in st.dist && v in st.dist && st.dist[v] <= st.dist[x] + MinWeight(es, x, v).value
  }

  /** Every key at a finite distance is reachable from the start. */
  ghost predicate Connected(known: set<Key>, es: seq<Edge>, s: Key, st: Search) {
    forall v :: v in st.dist ==> Reachable(es, known, s, v)
  }

  /** Every visited key's distance is a lower bound on the cost of any walk to it. */
  ghost predicate Settled(known: set<Key>, es: seq<Edge>, s: Key, st: Search) {
    forall x :: x in st.visited ==> x in st.dist && Shortest(es, known, s, x, st.dist[x])
  }

  ghost predicate Inv(known: set<Key>, es: seq<Edge>, s: Key, e: Key, st: Search, rank: map<Key, nat>, n: nat) {
    && Shape(known, s, e, st)
    && Ranked(st, rank, n)
    && PrevLinks(es, st, rank, n)
    && Relaxed(known, es, st)
    && Connected(known, es, s, st)
    && (NonNegative(es) ==> Settled(known, es, s, st))
  }

  /** How the selection loop stops: nothing left to select, or the destination selected. */
  ghost predicate Stopped(e: Key, st: Search) {
    || (forall k :: k in st.dist ==> k in st.visited)
    || (Candidate(st, e) && forall k :: Candidate(st, k) ==> st.dist[e] <= st.dist[k])
  }

  lemma InvInit(known: set<Key>, es: seq<Edge>, s: Key, e: Key)
    requires s in known
    ensures Inv(known, es, s, e, Search(map[s := 0.0], map[], {}), map[], 0)
  {
    assert IsWalk(es, known, [s]);
  }

  /** The key selected next (the nearest candidate) is at its true distance, when
      weights are non-negative. */
  lemma SelectedIsShortest(known: set<Key>, es: seq<Edge>, s: Key, e: Key, st: Search, u: Key)
    requires Shape(known, s, e, st) && Relaxed(known, es, st) && Settled(known, es, s, st) && NonNegative(es)
    requires Candidate(st, u) && forall k :: Candidate(st, k) ==> st.dist[u] <= st.dist[k]
    ensures Shortest(es, known, s, u, st.dist[u])
  {
    forall p | IsWalk(es, known, p) && p[0] == s && p[|p| - 1] == u
      ensures st.dist[u] <= Cost(es, p)
    {
      CostNonNegative(es, p);
      if s in st.visited {
        assert |p| >= 2;
        var i := FirstOutside(p, st.visited);
        var x, v := p[i - 1], p[i];
        assert MinWeight(es, p[i - 1], p[i]).Some?;
        assert v in st.dist && st.dist[v] <= st.dist[x] + MinWeight(es, x, v).value;
        var q := p[..i];
        CostPrefix(es, p, i);
        CostPrefix(es, p, i + 1);
        assert IsWalk(es, known, q) && q[0] == s && q[|q| - 1] == x;
        assert st.dist[x] <= Cost(es, q);
        assert p[..i + 1][..i] == q;
        assert Cost(es, p[..i + 1]) == Cost(es, q) + MinWeight(es, x, v).value;
      }
    }
  }

  /** The first position of `p` outside `inside`, when `p` starts inside and ends outside. */
  lemma FirstOutside(p: seq<Key>, inside: set<Key>) returns (i: nat)
    requires |p| >= 1 && p[0] in inside && p[|p| - 1] !in inside
    ensures 0 < i < |p| && p[i] !in inside && p[i - 1] in inside
  {
    i := 1;
    while p[i] in inside
      invariant 0 < i < |p| && p[i - 1] in inside
      decreases |p| - i
    {
      i := i + 1;
    }
  }

  /** Once nothing is left to select, the destination is not reachable. */
  lemma ExhaustedUnreachable(known: set<Key>, es: seq<Edge>, s: Key, e: Key, st: Search,
                             rank: map<Key, nat>, n: nat)
    requires Inv(known, es, s, e, st, rank, n)
    requires forall k :: k in st.dist ==> k in st.visited
    ensures !Reachable(es, known, s, e)
  {
    if Reachable(es, known, s, e) {
      var p :| IsWalk(es, known, p) && p[0] == s && p[|p| - 1] == e;
      var i := 0;
      while i < |p| - 1
        invariant 0 <= i < |p|
        invariant p[i] in st.visited
      {
        assert MinWeight(es, p[i], p[i + 1]).Some?;
        i := i + 1;
      }
    }
  }

  lemma StepShape(known: set<Key>, es: seq<Edge>, s: Key, e: Key, st: Search, u: Key)
    requires Shape(known, s, e, st)
    requires Candidate(st, u) && u != e
    ensures Shape(known, s, e, RelaxAllSpec(known, es, st.(visited := st.visited + {u}), u))
  {
    var st1 := st.(visited := st.visited + {u});
    var r := RelaxAllSpec(known, es, st1, u);
    if s !in st.visited {
      assert u == s;
    }
    RelaxAllAt(known, es, st1, u, s);
    RelaxAllAt(known, es, st1, u, u);
    forall v | v in r.dist
      ensures v in known && (v != s ==> v in r.prev)
    {
      RelaxAllAt(known, es, st1, u, v);
    }
    forall v | v in r.prev
      ensures v in r.dist
    {
      RelaxAllAt(known, es, st1, u, v);
    }
    forall v | v in r.visited
      ensures v in r.dist
    {
      RelaxAllAt(known, es, st1, u, v);
    }
  }

  /** Visiting `u` keeps the predecessor links, key by key. */
  lemma StepLinkAt(known: set<Key>, es: seq<Edge>, s: Key, e: Key, st: Search,
                   rank: map<Key, nat>, n: nat, u: Key, v: Key)
    requires Shape(known, s, e, st) && Ranked(st, rank, n) && PrevLinks(es, st, rank, n)
    requires Candidate(st, u)
    requires v in RelaxAllSpec(known, es, st.(visited := st.visited + {u}), u).prev
    ensures var r := RelaxAllSpec(known, es, st.(visited := st.visited + {u}), u);
            var rank' := rank[u := n];
            && v in r.dist && r.prev[v] in r.visited && r.prev[v] in r.dist
            && MinWeight(es, r.prev[v], v).Some?
            && r.dist[v] == r.dist[r.prev[v]] + MinWeight(es, r.prev[v], v).value
            && RankOf(rank', n + 1, r.prev[v]) < RankOf(rank', n + 1, v)
  {
    var st1 := st.(visited := st.visited + {u});
    RelaxAllAt(known, es, st1, u, u);
    RelaxAllAt(known, es, st1, u, v);
    if v !in Improved(known, es, st1, u) {
      RelaxAllAt(known, es, st1, u, st.prev[v]);
    }
  }

  lemma StepLinks(known: set<Key>, es: seq<Edge>, s: Key, e: Key, st: Search,
                  rank: map<Key, nat>, n: nat, u: Key)
    requires Shape(known, s, e, st) && Ranked(st, rank, n) && PrevLinks(es, st, rank, n)
    requires Candidate(st, u)
    ensures var r := RelaxAllSpec(known, es, st.(visited := st.visited + {u}), u);
            Ranked(r, rank[u := n], n + 1) && PrevLinks(es, r, rank[u := n], n + 1)
  {
    var r := RelaxAllSpec(known, es, st.(visited := st.visited + {u}), u);
    var rank' := rank[u := n];
    forall v | v in r.prev
      ensures && v in r.dist && r.prev[v] in r.visited && r.prev[v] in r.dist
              && MinWeight(es, r.prev[v], v).Some?
              && r.dist[v] == r.dist[r.prev[v]] + MinWeight(es, r.prev[v], v).value
              && RankOf(rank', n + 1, r.prev[v]) < RankOf(rank', n + 1, v)
    {
      StepLinkAt(known, es, s, e, st, rank, n, u, v);
    }
  }

  /** Visiting `u` keeps every triple from a visited key relaxed, pair by pair. */
  lemma StepRelaxedAt(known: set<Key>, es: seq<Edge>, s: Key, e: Key, st: Search, u: Key, x: Key, v: Key)
    requires Shape(known, s, e, st) && Relaxed(known, es, st)
    requires Candidate(st, u)
    requires x in st.visited + {u} && v in known && v !in st.visited + {u} && MinWeight(es, x, v).Some?
    ensures var r := RelaxAllSpec(known, es, st.(visited := st.visited + {u}), u);
            x in r.dist && v in r.dist && r.dist[v] <= r.dist[x] + MinWeight(es, x, v).value
  {
    var st1 := st.(visited := st.visited + {u});
    RelaxAllAt(known, es, st1, u, u);
    RelaxAllAt(known, es, st1, u, x);
    RelaxAllAt(known, es, st1, u, v);
  }

  lemma StepRelaxed(known: set<Key>, es: seq<Edge>, s: Key, e: Key, st: Search, u: Key)
    requires Shape(known, s, e, st) && Relaxed(known, es, st)
    requires Candidate(st, u)
    ensures Relaxed(known, es, RelaxAllSpec(known, es, st.(visited := st.visited + {u}), u))
  {
    var r := RelaxAllSpec(known, es, st.(visited := st.visited + {u}), u);
    forall x, v | x in r.visited && v in known && v !in r.visited && MinWeight(es, x, v).Some?
      ensures x in r.dist && v in r.dist && r.dist[v] <= r.dist[x] + MinWeight(es, x, v).value
    {
      StepRelaxedAt(known, es, s, e, st, u, x, v);
    }
  }

  /** A key newly at a finite distance is reachable through `u`. */
  lemma StepConnectedAt(known: set<Key>, es: seq<Edge>, s: Key, e: Key, st: Search, u: Key, v: Key)
    requires Shape(known, s, e, st) && Connected(known, es, s, st)
    requires Candidate(st, u)
    requires v in RelaxAllSpec(known, es, st.(visited := st.visited + {u}), u).dist
    ensures Reachable(es, known, s, v)
  {
    var st1 := st.(visited := st.visited + {u});
    RelaxAllAt(known, es, st1, u, v);
    if v !in st.dist {
      assert Reachable(es, known, s, u);
      var p :| IsWalk(es, known, p) && p[0] == s && p[|p| - 1] == u;
      var q := p + [v];
      assert q[|q| - 2] == u;
      assert IsWalk(es, known, q);
    }
  }

  lemma StepConnected(known: set<Key>, es: seq<Edge>, s: Key, e: Key, st: Search, u: Key)
    requires Shape(known, s, e, st) && Connected(known, es, s, st)
    requires Candidate(st, u)
    ensures Connected(known, es, s, RelaxAllSpec(known, es, st.(visited := st.visited + {u}), u))
  {
    var r := RelaxAllSpec(known, es, st.(visited := st.visited + {u}), u);
    forall v | v in r.dist
      ensures Reachable(es, known, s, v)
    {
      StepConnectedAt(known, es, s, e, st, u, v);
    }
  }

  lemma StepSettled(known: set<Key>, es: seq<Edge>, s: Key, e: Key, st: Search, u: Key)
    requires Shape(known, s, e, st) && Relaxed(known, es, st) && Settled(known, es, s, st) && NonNegative(es)
    requires Candidate(st, u) && forall k :: Candidate(st, k) ==> st.dist[u] <= st.dist[k]
    ensures Settled(known, es, s, RelaxAllSpec(known, es, st.(visited := st.visited + {u}), u))
  {
    var st1 := st.(visited := st.visited + {u});
    var r := RelaxAllSpec(known, es, st1, u);
    SelectedIsShortest(known, es, s, e, st, u);
    forall x | x in r.visited
      ensures x in r.dist && Shortest(es, known, s, x, r.dist[x])
    {
      RelaxAllAt(known, es, st1, u, x);
    }
  }

  /** Visiting the nearest candidate `u` and relaxing its triples keeps the invariant. */
  lemma InvStep(known: set<Key>, es: seq<Edge>, s: Key, e: Key, st: Search,
                rank: map<Key, nat>, n: nat, u: Key)
    requires Inv(known, es, s, e, st, rank, n)
    requires Candidate(st, u) && u != e
    requires forall k :: Candidate(st, k) ==> st.dist[u] <= st.dist[k]
    ensures var st1 := st.(visited := st.visited + {u});
            Inv(known, es, s, e, RelaxAllSpec(known, es, st1, u), rank[u := n], n + 1)
  {
    StepShape(known, es, s, e, st, u);
    StepLinks(known, es, s, e, st, rank, n, u);
    StepRelaxed(known, es, s, e, st, u);
    StepConnected(known, es, s, e, st, u);
    if NonNegative(es) {
      StepSettled(known, es, s, e, st, u);
    }
  }

  // ---------------------------------------------------------------------------
  // Route reconstruction

  /** Follows predecessor pointers back from `end`, prepending each key, for as long
      as the current key is truthy: a null/undefined predecessor or the empty key
      stops the walk. `rank` witnesses that the pointers are acyclic. */
  method Reconstruct(prev: map<Key, Key>, end: Key, ghost rank: map<Key, nat>, ghost n: nat)
    returns (path: seq<Key>)
    requires forall v :: v in prev ==> RankOf(rank, n, prev[v]) < RankOf(rank, n, v)
    ensures end == "" ==> path == []
    ensures end != "" ==> |path| >= 1 && path[|path| - 1] == end
    ensures forall i :: 1 <= i < |path| ==> path[i] in prev && prev[path[i]] == path[i - 1]
    ensures |path| >= 1 ==> path[0] !in prev || prev[path[0]] == ""
    ensures forall i :: 0 <= i < |path| ==> path[i] != ""
    ensures Distinct(path)
  {
    path := [];
    var current: Option<Key> := Some(end);
    while current.Some? && current.value != ""
      invariant current.None? ==> |path| >= 1 && path[0] !in prev
      invariant current.Some? && |path| >= 1 ==> path[0] in prev && prev[path[0]] == current.value
      invariant path == [] ==> current == Some(end)
      invariant path != [] ==> path[|path| - 1] == end
      invariant end == "" ==> path == []
      invariant forall i :: 1 <= i < |path| ==> path[i] in prev && prev[path[i]] == path[i - 1]
      invariant forall i :: 0 <= i < |path| ==> path[i] != ""
      invariant forall i, j :: 0 <= i < j < |path| ==> RankOf(rank, n, path[i]) < RankOf(rank, n, path[j])
      invariant current.Some? && |path| >= 1 ==> RankOf(rank, n, current.value) < RankOf(rank, n, path[0])
      decreases if current.Some? then RankOf(rank, n, current.value) + 1 else 0
    {
      var cur := current.value;
      path := [cur] + path;
      if cur in prev {
        current := Some(prev[cur]);
      } else {
        current := None;
      }
    }
  }

  // ---------------------------------------------------------------------------
  // The solver

  /** The scan's result, restated over keys instead of positions. */
  lemma SelectionFacts(order: seq<Key>, known: set<Key>, st: Search, r: Option<Key>)
    requires forall k :: k in order <==> k in known
    requires st.dist.Keys <= known
    requires r.None? <==> forall i :: 0 <= i < |order| ==> !Candidate(st, order[i])
    requires r.Some? ==> r.value in order && Candidate(st, r.value)
    requires r.Some? ==> forall i :: 0 <= i < |order| && Candidate(st, order[i]) ==> st.dist[r.value] <= st.dist[order[i]]
    ensures r.None? ==> forall k :: k in st.dist ==> k in st.visited
    ensures r.Some? ==> r.value in known && forall k :: Candidate(st, k) ==> st.dist[r.value] <= st.dist[k]
  {
    forall k | Candidate(st, k)
      ensures r.Some? && st.dist[r.value] <= st.dist[k]
    {
      var i :| 0 <= i < |order| && order[i] == k;
    }
  }

  /** Visiting one more known key shrinks the set of keys left to visit. */
  lemma Shrinks(known: set<Key>, visited: set<Key>, u: Key)
    requires u in known && u !in visited
    ensures |known - (visited + {u})| < |known - visited|
  {
    assert known - (visited + {u}) == (known - visited) - {u};
  }

  /** One round of the search after the selection: mark `u` visited and relax around it. */
  method Visit(known: set<Key>, edges: seq<Edge>, start: Key, end: Key, st: Search,
               ghost rank: map<Key, nat>, ghost n: nat, u: Key)
    returns (r: Search, ghost rank': map<Key, nat>, ghost n': nat)
    requires Inv(known, edges, start, end, st, rank, n)
    requires Candidate(st, u) && u != end && u in known
    requires forall k :: Candidate(st, k) ==> st.dist[u] <= st.dist[k]
    ensures Inv(known, edges, start, end, r, rank', n')
    ensures r.visited == st.visited + {u}
  {
    InvStep(known, edges, start, end, st, rank, n, u);
    var st1 := st.(visited := st.visited + {u});
    r := RelaxAll(known, edges, st1, u);
    RelaxAllAt(known, edges, st1, u, u);
    rank' := rank[u := n];
    n' := n + 1;
  }

  /** No key of the search, and not the start, is the (falsy) empty string. */
  predicate NoEmptyKey(nodes: NodeMap, start: Key) {
    "" !in Known(nodes, start)
  }

  /** `dijkstra(nodes, edges, start, end)`. */
  method ShortestRoute(nodes: NodeMap, edges: seq<Edge>, start: Key, end: Key) returns (route: seq<Key>)
    requires nodes.Valid()
    ensures end == "" ==> route == []
    ensures end != "" ==> |route| >= 1 && route[|route| - 1] == end
    ensures Distinct(route)
    ensures Linked(edges, route)
    ensures start == end && end != "" ==> route == [end]
    ensures end != "" && !Reachable(edges, Known(nodes, start), start, end) ==> route == [end]
    ensures end != "" && end !in Known(nodes, start) ==> route == [end]
    ensures NoEmptyKey(nodes, start) ==>
              (|route| >= 2 <==> start != end && Reachable(edges, Known(nodes, start), start, end))
    ensures NoEmptyKey(nodes, start) && |route| >= 2 ==>
              route[0] == start && IsWalk(edges, Known(nodes, start), route)
    ensures NoEmptyKey(nodes, start) && NonNegative(edges) && |route| >= 2 ==>
              Shortest(edges, Known(nodes, start), start, end, Cost(edges, route))
  {
    var st, rank, n := Settle(nodes, edges, start, end);
    route := Reconstruct(st.prev, end, rank, n);
    Conclude(nodes, edges, start, end, st, rank, n, route);
  }

  /** The solver's `while (true)` selection loop: returns the tables it leaves behind. */
  method Settle(nodes: NodeMap, edges: seq<Edge>, start: Key, end: Key)
    returns (st: Search, ghost rank: map<Key, nat>, ghost n: nat)
    requires nodes.Valid()
    ensures Inv(Known(nodes, start), edges, start, end, st, rank, n)
    ensures Stopped(end, st)
  {
    var order := TableOrder(nodes, start);
    var known := Known(nodes, start);
    st := Search(map[start := 0.0], map[], {});
    rank, n := map[], 0;
    InvInit(known, edges, start, end);
    var done := false;
    while !done
      invariant Inv(known, edges, start, end, st, rank, n)
      invariant done ==> Stopped(end, st)
      decreases if done then 0 else 1, |known - st.visited|
    {
      st, rank, n, done := Round(order, known, edges, start, end, st, rank, n);
    }
  }

  /** One pass of the selection loop's body: select, then either stop or visit the selection. */
  method Round(order: seq<Key>, known: set<Key>, edges: seq<Edge>, start: Key, end: Key, st: Search,
               ghost rank: map<Key, nat>, ghost n: nat)
    returns (r: Search, ghost rank': map<Key, nat>, ghost n': nat, done: bool)
    requires Distinct(order) && forall k :: k in order <==> k in known
    requires Inv(known, edges, start, end, st, rank, n)
    ensures Inv(known, edges, start, end, r, rank', n')
    ensures done ==> Stopped(end, r)
    ensures !done ==> |known - r.visited| < |known - st.visited|
  {
    var current := SelectMin(order, st);
    SelectionFacts(order, known, st, current);
    if current.None? || current.value == end {
      r, rank', n', done := st, rank, n, true;
    } else {
      var u := current.value;
      r, rank', n' := Visit(known, edges, start, end, st, rank, n, u);
      done := false;
      Shrinks(known, st.visited, u);
    }
  }

  /** The chain of predecessor links a reconstructed route follows. */
  ghost predicate FollowsPrev(prev: map<Key, Key>, route: seq<Key>) {
    forall i :: 1 <= i < |route| ==> route[i] in prev && prev[route[i]] == route[i - 1]
  }

  /** Consecutive keys of a route that follows the links are joined by a triple. */
  lemma RouteLinked(es: seq<Edge>, st: Search, rank: map<Key, nat>, n: nat, route: seq<Key>)
    requires PrevLinks(es, st, rank, n) && FollowsPrev(st.prev, route)
    ensures Linked(es, route)
  {
    forall i | 0 <= i < |route| - 1
      ensures MinWeight(es, route[i], route[i + 1]).Some?
    {
      assert route[i + 1] in st.prev;
    }
  }

  /** A route of two keys or more ends at a reachable known key other than the start. */
  lemma RouteEnd(known: set<Key>, es: seq<Edge>, s: Key, e: Key, st: Search, route: seq<Key>)
    requires Shape(known, s, e, st) && Connected(known, es, s, st) && FollowsPrev(st.prev, route)
    requires |route| >= 2 && route[|route| - 1] == e
    ensures e in st.prev && e in known && e != s && Reachable(es, known, s, e)
  {
    assert route[|route| - 1] in st.prev;
  }

  /** When the destination is reachable, the loop stopped because it selected it. */
  lemma StoppedOnEnd(known: set<Key>, es: seq<Edge>, s: Key, e: Key, st: Search, rank: map<Key, nat>, n: nat)
    requires Inv(known, es, s, e, st, rank, n) && Stopped(e, st)
    requires Reachable(es, known, s, e)
    ensures Candidate(st, e)
  {
    if forall k :: k in st.dist ==> k in st.visited {
      ExhaustedUnreachable(known, es, s, e, st, rank, n);
    }
  }

  /** A route back from a selected destination other than the start runs back at least one link. */
  lemma RouteReaches(nodes: NodeMap, es: seq<Edge>, s: Key, e: Key, st: Search, rank: map<Key, nat>, n: nat,
                     route: seq<Key>)
    requires Shape(Known(nodes, s), s, e, st) && PrevLinks(es, st, rank, n)
    requires NoEmptyKey(nodes, s) && s != e && Candidate(st, e)
    requires |route| >= 1 && route[|route| - 1] == e
    requires route[0] !in st.prev || st.prev[route[0]] == ""
    ensures |route| >= 2
  {
    assert e in st.prev && st.prev[e] in Known(nodes, s);
  }

  /** A route of two keys or more starts at the start and is a walk. */
  lemma RouteWalk(nodes: NodeMap, es: seq<Edge>, s: Key, e: Key, st: Search, rank: map<Key, nat>, n: nat,
                  route: seq<Key>)
    requires Shape(Known(nodes, s), s, e, st) && PrevLinks(es, st, rank, n) && FollowsPrev(st.prev, route)
    requires NoEmptyKey(nodes, s) && |route| >= 2
    requires route[0] !in st.prev || st.prev[route[0]] == ""
    ensures route[0] == s && IsWalk(es, Known(nodes, s), route)
    ensures forall i :: 0 <= i < |route| ==> route[i] in st.dist
  {
    var known := Known(nodes, s);
    assert route[0] in st.dist by {
      assert route[0] == st.prev[route[1]];
    }
    forall i | 0 <= i < |route|
      ensures route[i] in st.dist
    {
      if i > 0 {
        assert route[i] in st.prev;
      }
    }
    RouteLinked(es, st, rank, n, route);
  }

  /** The reconstructed route costs exactly the destination's distance, which is optimal. */
  lemma RouteShortest(known: set<Key>, es: seq<Edge>, s: Key, e: Key, st: Search, rank: map<Key, nat>,
                      n: nat, route: seq<Key>)
    requires Shape(known, s, e, st) && PrevLinks(es, st, rank, n) && Relaxed(known, es, st)
    requires Settled(known, es, s, st) && NonNegative(es) && Stopped(e, st)
    requires FollowsPrev(st.prev, route) && |route| >= 2 && route[0] == s && route[|route| - 1] == e
    requires forall i :: 0 <= i < |route| ==> route[i] in st.dist
    requires IsWalk(es, known, route)
    ensures Shortest(es, known, s, e, Cost(es, route))
  {
    assert route[|route| - 1] in st.prev;
    assert Candidate(st, e);
    SelectedIsShortest(known, es, s, e, st, e);
    forall i | 0 <= i < |route| - 1
      ensures st.dist[route[i + 1]] == st.dist[route[i]] + MinWeight(es, route[i], route[i + 1]).value
    {
      assert route[i + 1] in st.prev;
    }
    CostTelescopes(es, route, st.dist);
  }

  /** What the tables left by the selection loop say about the reconstructed route. */
  lemma Conclude(nodes: NodeMap, es: seq<Edge>, s: Key, e: Key, st: Search, rank: map<Key, nat>, n: nat,
                 route: seq<Key>)
    requires Inv(Known(nodes, s), es, s, e, st, rank, n) && Stopped(e, st)
    requires e == "" ==> route == []
    requires e != "" ==> |route| >= 1 && route[|route| - 1] == e
    requires FollowsPrev(st.prev, route)
    requires |route| >= 1 ==> route[0] !in st.prev || st.prev[route[0]] == ""
    ensures Linked(es, route)
    ensures s == e && e != "" ==> route == [e]
    ensures e != "" && !Reachable(es, Known(nodes, s), s, e) ==> route == [e]
    ensures e != "" && e !in Known(nodes, s) ==> route == [e]
    ensures NoEmptyKey(nodes, s) ==> (|route| >= 2 <==> s != e && Reachable(es, Known(nodes, s), s, e))
    ensures NoEmptyKey(nodes, s) && |route| >= 2 ==> route[0] == s && IsWalk(es, Known(nodes, s), route)
    ensures NoEmptyKey(nodes, s) && NonNegative(es) && |route| >= 2 ==>
              Shortest(es, Known(nodes, s), s, e, Cost(es, route))
  {
    var known := Known(nodes, s);
    RouteLinked(es, st, rank, n, route);
    if |route| >= 2 {
      RouteEnd(known, es, s, e, st, route);
    }
    if NoEmptyKey(nodes, s) && s != e && Reachable(es, known, s, e) {
      StoppedOnEnd(known, es, s, e, st, rank, n);
      RouteReaches(nodes, es, s, e, st, rank, n, route);
    }
    if NoEmptyKey(nodes, s) && |route| >= 2 {
      RouteWalk(nodes, es, s, e, st, rank, n, route);
      if NonNegative(es) {
        RouteShortest(known, es, s, e, st, rank, n, route);
      }
    }
  }
}

=== FILE: directions.dfy ===
/**
 * The directions list: one line per key of a route, "Start at" the first, "Reach" the
 * last and "Go to" every key in between, each showing the key's label from the map.
 */
module Directions {
  import opened Wrappers
  import opened Graph
  import Dijkstra

  datatype Kind = StartAt | GoTo | Reach

  /** One line of the list: its wording and the label it shows. */
  datatype Step = Step(kind: Kind, title: string)

  /** What the component produces: nothing for an empty route, a failed label lookup at the
      first key missing from the map, or the list. */
  datatype Rendered = Nothing | Missing(key: Key) | Listed(steps: seq<Step>)

  /** The first key of `path` that the map does not hold. */
  function FirstMissing(nodes: NodeMap, path: seq<Key>): Option<Key>
    decreases |path|
  {
    if |path| == 0 then None
    else if path[0] !in nodes.entries then Some(path[0])
    else FirstMissing(nodes, path[1..])
  }

  lemma {:induction false} FirstMissingSpec(nodes: NodeMap, path: seq<Key>)
    ensures FirstMissing(nodes, path).None? <==> forall i :: 0 <= i < |path| ==> path[i] in nodes.entries
    ensures FirstMissing(nodes, path).Some? ==>
              exists i :: && 0 <= i < |path| && path[i] == FirstMissing(nodes, path).value
                          && path[i] !in nodes.entries
                          && forall h :: 0 <= h < i ==> path[h] in nodes.entries
    decreases |path|
  {
    if |path| > 0 && path[0] in nodes.entries {
      var tail := path[1..];
      FirstMissingSpec(nodes, tail);
      assert forall i :: 0 <= i < |tail| ==> tail[i] == path[i + 1];
      if FirstMissing(nodes, tail).Some? {
        var i :| && 0 <= i < |tail| && tail[i] == FirstMissing(nodes, tail).value
                 && tail[i] !in nodes.entries
                 && forall h :: 0 <= h < i ==> tail[h] in nodes.entries;
        assert path[i + 1] == tail[i];
        forall h | 0 <= h < i + 1
          ensures path[h] in nodes.entries
        {
          if h > 0 {
            assert path[h] == tail[h - 1];
          }
        }
      }
    }
  }

  /** The wording of line `index` of `n`: the first check wins, so a one-key route is
      only a start. */
  function KindAt(index: nat, n: nat): Kind {
    if index == 0 then StartAt
    else if index == n - 1 then Reach
    else GoTo
  }

  /** The component. */
  function Render(nodes: NodeMap, path: seq<Key>): (r: Rendered)
    ensures r.Nothing? <==> |path| == 0
    ensures r.Listed? ==> |r.steps| == |path| && r.steps[0].kind == StartAt
  {
    if |path| == 0 then Nothing
    else
      match FirstMissing(nodes, path)
      case Some(k) => Missing(k)
      case None =>
        FirstMissingSpec(nodes, path);
        Listed(seq(|path|, i requires 0 <= i < |path| => Step(KindAt(i, |path|), nodes.entries[path[i]].title)))
  }

  /** The outcome: nothing exactly for the empty route; a failed lookup exactly when some
      key is missing, naming the first one; otherwise a line per key showing its label. */
  lemma RenderSpec(nodes: NodeMap, path: seq<Key>)
    ensures Render(nodes, path).Nothing? <==> |path| == 0
    ensures Render(nodes, path).Missing? <==> exists i :: 0 <= i < |path| && path[i] !in nodes.entries
    ensures Render(nodes, path).Missing? ==>
              exists i :: && 0 <= i < |path| && path[i] == Render(nodes, path).key
                          && path[i] !in nodes.entries
                          && forall h :: 0 <= h < i ==> path[h] in nodes.entries
    ensures Render(nodes, path).Listed? ==>
              && |Render(nodes, path).steps| == |path|
              && forall i :: 0 <= i < |path| ==> Render(nodes, path).steps[i].title == nodes.entries[path[i]].title
  {
    FirstMissingSpec(nodes, path);
  }

  /** The wordings in order. */
  function Kinds(steps: seq<Step>): (ks: seq<Kind>)
    ensures |ks| == |steps| && forall i :: 0 <= i < |steps| ==> ks[i] == steps[i].kind
  {
    seq(|steps|, i requires 0 <= i < |steps| => steps[i].kind)
  }

  function Repeat(k: Kind, n: nat): (ks: seq<Kind>)
    ensures |ks| == n && forall i :: 0 <= i < n ==> ks[i] == k
  {
    seq(n, _ => k)
  }

  lemma {:induction false} RepeatCount(k: Kind, n: nat)
    ensures multiset(Repeat(k, n))[k] == n
    ensures forall o :: o != k ==> multiset(Repeat(k, n))[o] == 0
  {
    if n > 0 {
      RepeatCount(k, n - 1);
      assert Repeat(k, n) == Repeat(k, n - 1) + [k];
    }
  }

  /** A listed route reads "Start at" once, then "Go to" for each intermediate key, then
      "Reach" once; a one-key route reads "Start at" alone. */
  lemma ListedShape(nodes: NodeMap, path: seq<Key>)
    requires Render(nodes, path).Listed?
    ensures var ks := Kinds(Render(nodes, path).steps);
            if |path| == 1 then ks == [StartAt] else ks == [StartAt] + Repeat(GoTo, |path| - 2) + [Reach]
  {
    var ks := Kinds(Render(nodes, path).steps);
    if |path| > 1 {
      var want := [StartAt] + Repeat(GoTo, |path| - 2) + [Reach];
      assert |ks| == |want|;
      forall i | 0 <= i < |ks|
        ensures ks[i] == want[i]
      {
        if 0 < i < |ks| - 1 {
          assert want[i] == Repeat(GoTo, |path| - 2)[i - 1];
        }
      }
    }
  }

  /** Counting the lines: one start, one arrival when the route has two keys or more, and
      one "Go to" per key strictly between the ends. */
  lemma ListedCounts(nodes: NodeMap, path: seq<Key>)
    requires Render(nodes, path).Listed?
    ensures var m := multiset(Kinds(Render(nodes, path).steps));
            && m[StartAt] == 1
            && m[Reach] == (if |path| >= 2 then 1 else 0)
            && m[GoTo] == (if |path| >= 2 then |path| - 2 else 0)
  {
    ListedShape(nodes, path);
    if |path| >= 2 {
      RepeatCount(GoTo, |path| - 2);
    }
  }

  /** A walk found from a start the map holds only visits keys of the map, so its list
      always renders. */
  lemma WalkListed(nodes: NodeMap, es: seq<Edge>, s: Key, route: seq<Key>)
    requires s in nodes.entries && IsWalk(es, Dijkstra.Known(nodes, s), route)
    ensures Render(nodes, route).Listed?
    ensures Render(nodes, route).steps[0] == Step(StartAt, nodes.entries[route[0]].title)
  {
    RenderSpec(nodes, route);
  }
}

=== FILE: easy_marker.dfy ===
/**
 * The easy marker: the space key marks the camera position under the typed location name,
 * and the marks are turned into a map config whose triples join each mark to the next one,
 * forwards only.
 *
 * The camera position (rounded to one decimal) and the rounded distance between two marks
 * are given (`dist`); the camera movement loop and the download are not modelled.
 */
module EasyMarker {
  import opened Graph
  import opened Landmarks
  import CoordinateViewer
  import Dijkstra

  /** The marks and the location-name field. */
  datatype Marking = Marking(marks: seq<Marker>, locationName: string)

  /** The space key: refused while the name is blank; otherwise the mark is appended and the
      name field cleared. Any other key leaves the marks alone. */
  function KeyDown(m: Marking, key: string, x: real, y: real, z: real): (r: Marking)
    ensures key != " " || Blank(m.locationName) ==> r == m
    ensures key == " " && !Blank(m.locationName) ==>
              && |r.marks| == |m.marks| + 1 && r.marks[..|m.marks|] == m.marks
              && r.marks[|m.marks|] == Marker(m.locationName, x, y, z)
              && r.locationName == ""
  {
    if key == " " && !Blank(m.locationName) then Marking(m.marks + [Marker(m.locationName, x, y, z)], "")
    else m
  }

  /** The space key does to the marks what the viewer's mark button does to its markers,
      so it too keeps every mark named. */
  lemma KeyDownAgrees(m: Marking, x: real, y: real, z: real)
    ensures var v := CoordinateViewer.AddMarker(CoordinateViewer.Viewer(m.marks, m.locationName), x, y, z);
            KeyDown(m, " ", x, y, z) == Marking(v.markers, v.markerName)
    ensures Named(m.marks) ==> Named(KeyDown(m, " ", x, y, z).marks)
  {
    if Named(m.marks) {
      CoordinateViewer.NamedInvariant(CoordinateViewer.Viewer(m.marks, m.locationName), x, y, z);
    }
  }

  /** One triple per key but the last, joining it to the next key with the pair's gap. */
  function ForwardTriples(ks: seq<Key>, ws: seq<real>): (es: seq<Edge>)
    requires |ks| <= |ws| + 1
    ensures |es| == (if |ks| < 2 then 0 else |ks| - 1)
    decreases |ks|
  {
    if |ks| < 2 then []
    else ForwardTriples(ks[..|ks| - 1], ws) + [Edge(ks[|ks| - 2], ks[|ks| - 1], ws[|ks| - 2])]
  }

  /** Triple `i - 1` joins key `i - 1` to key `i`. */
  lemma {:induction false} ForwardTriplesSpec(ks: seq<Key>, ws: seq<real>)
    requires |ks| <= |ws| + 1
    ensures forall i :: 1 <= i < |ks| ==> ForwardTriples(ks, ws)[i - 1] == Edge(ks[i - 1], ks[i], ws[i - 1])
    decreases |ks|
  {
    if |ks| >= 2 {
      var init := ks[..|ks| - 1];
      ForwardTriplesSpec(init, ws);
      assert forall i :: 0 <= i < |init| ==> init[i] == ks[i];
    }
  }

  /** The easy marker's triples: each mark's key to the next mark's, with their distance. */
  function ForwardEdges(ms: seq<Marker>, dist: (Marker, Marker) -> real): (es: seq<Edge>)
    ensures |ms| >= 1 ==> |es| == |ms| - 1
    ensures |ms| == 0 ==> es == []
  {
    ForwardTriples(Keys(ms), Gaps(ms, dist))
  }

  /** Triple `i - 1` joins mark `i - 1` to mark `i` with the distance between them. */
  lemma ForwardEdgesSpec(ms: seq<Marker>, dist: (Marker, Marker) -> real)
    ensures forall i :: 1 <= i < |ms| ==>
              ForwardEdges(ms, dist)[i - 1] == Edge(KeyOf(ms[i - 1].name), KeyOf(ms[i].name), dist(ms[i - 1], ms[i]))
  {
    ForwardTriplesSpec(Keys(ms), Gaps(ms, dist));
  }

  /** `generateJSON`: the node table and the forward triples; an empty list of marks gives
      an empty map rather than nothing. */
  function GenerateJson(ms: seq<Marker>, dist: (Marker, Marker) -> real): (r: Config)
    ensures |ms| == 0 ==> r.nodes.order == [] && r.edges == []
    ensures r.nodes.Valid()
  {
    Config(BuildNodes(ms), ForwardEdges(ms, dist))
  }

  /** Every triple of a generated map joins two keys of its node table. */
  lemma GenerateJsonEndpoints(ms: seq<Marker>, dist: (Marker, Marker) -> real)
    ensures var c := GenerateJson(ms, dist);
            forall e :: e in c.edges ==> e.from in c.nodes.entries && e.to in c.nodes.entries
  {
    var es := ForwardEdges(ms, dist);
    var ks := Keys(ms);
    ForwardTriplesSpec(ks, Gaps(ms, dist));
    BuildNodesKeys(ms);
    forall e | e in es
      ensures e.from in BuildNodes(ms).entries && e.to in BuildNodes(ms).entries
    {
      var t :| 0 <= t < |es| && es[t] == e;
      assert es[t] == Edge(ks[t], ks[t + 1], Gaps(ms, dist)[t]);
    }
  }

  /** Since the solver reads every triple both ways, a key sequence's forward triples give
      every pair of keys the same cheapest weight as its paired triples. */
  lemma {:induction false} SameTriplesFor(ks: seq<Key>, ws: seq<real>, u: Key, v: Key)
    requires |ks| <= |ws| + 1
    ensures MinWeight(ForwardTriples(ks, ws), u, v) == MinWeight(CoordinateViewer.PairTriples(ks, ws), u, v)
    decreases |ks|
  {
    if |ks| >= 2 {
      var init := ks[..|ks| - 1];
      SameTriplesFor(init, ws, u, v);
      var a, b, w := ks[|ks| - 2], ks[|ks| - 1], ws[|ks| - 2];
      var f, g := Edge(a, b, w), Edge(b, a, w);
      var ps := CoordinateViewer.PairTriples(init, ws);
      assert CoordinateViewer.PairTriples(ks, ws) == (ps + [f]) + [g];
      MinWeightSnoc(ForwardTriples(init, ws), f, u, v);
      MinWeightSnoc(ps, f, u, v);
      MinWeightSnoc(ps + [f], g, u, v);
    }
  }

  /** For the same distance function, the easy marker's map gives every pair of keys the
      same cheapest weight as the viewer's config. */
  lemma SameTriples(ms: seq<Marker>, dist: (Marker, Marker) -> real, u: Key, v: Key)
    ensures MinWeight(ForwardEdges(ms, dist), u, v) == MinWeight(CoordinateViewer.PairEdges(ms, dist), u, v)
  {
    SameTriplesFor(Keys(ms), Gaps(ms, dist), u, v);
  }

  /** A generated map is linked mark to mark, so every marked key reaches every other. */
  lemma JsonConnected(ms: seq<Marker>, dist: (Marker, Marker) -> real, i: int, j: int)
    requires 0 <= i < |ms| && 0 <= j < |ms|
    ensures var c := GenerateJson(ms, dist);
            Reachable(c.edges, Dijkstra.Known(c.nodes, KeyOf(ms[i].name)), KeyOf(ms[i].name), KeyOf(ms[j].name))
  {
    var c := GenerateJson(ms, dist);
    var ks := Keys(ms);
    CoordinateViewer.GenerateConfigChain(ms, dist);
    forall t | 1 <= t < |ks|
      ensures MinWeight(c.edges, ks[t - 1], ks[t]).Some?
    {
      SameTriples(ms, dist, ks[t - 1], ks[t]);
    }
    BuildNodesKeys(ms);
    forall t | 0 <= t < |ks|
      ensures ks[t] in Dijkstra.Known(c.nodes, ks[i])
    {
      assert KeyOf(ms[t].name) == ks[t];
    }
    ChainReachable(c.edges, Dijkstra.Known(c.nodes, ks[i]), ks, i, j);
  }

  /** Routing between two marks of a generated map: with named marks and distinct keys the
      solver returns a walk from the first mark's key to the second's, and with
      non-negative distances no walk between them is cheaper. */
  method RouteBetween(ms: seq<Marker>, dist: (Marker, Marker) -> real, i: int, j: int) returns (route: seq<Key>)
    requires Named(ms)
    requires 0 <= i < |ms| && 0 <= j < |ms|
    ensures var c := GenerateJson(ms, dist);
            var s, e := KeyOf(ms[i].name), KeyOf(ms[j].name);
            && |route| >= 1 && route[0] == s && route[|route| - 1] == e
            && IsWalk(c.edges, Dijkstra.Known(c.nodes, s), route)
            && (s != e <==> |route| >= 2)
            && ((forall a, b :: dist(a, b) >= 0.0) && s != e ==>
                  Shortest(c.edges, Dijkstra.Known(c.nodes, s), s, e, Cost(c.edges, route)))
  {
    var c := GenerateJson(ms, dist);
    var s, e := KeyOf(ms[i].name), KeyOf(ms[j].name);
    KeyOfShape(ms[i].name);
    KeyOfShape(ms[j].name);
    NamedKeys(ms);
    JsonConnected(ms, dist, i, j);
    route := Dijkstra.ShortestRoute(c.nodes, c.edges, s, e);
    if s == e {
      BuildNodesKeys(ms);
      assert IsWalk(c.edges, Dijkstra.Known(c.nodes, s), route);
    }
    if forall a, b :: dist(a, b) >= 0.0 {
      ForwardNonNegative(ms, dist);
    }
  }

  /** With non-negative distances every forward triple has a non-negative weight. */
  lemma ForwardNonNegative(ms: seq<Marker>, dist: (Marker, Marker) -> real)
    requires forall a, b :: dist(a, b) >= 0.0
    ensures NonNegative(ForwardEdges(ms, dist))
  {
    var es := ForwardEdges(ms, dist);
    ForwardTriplesSpec(Keys(ms), Gaps(ms, dist));
    forall t | 0 <= t < |es|
      ensures es[t].weight >= 0.0
    {
      assert es[t].weight == Gaps(ms, dist)[t] == dist(ms[t], ms[t + 1]);
    }
  }
}

=== FILE: graph.dfy ===
/** The landmark graph as the navigation code consumes it: a node table keyed by
    landmark key and an ordered list of `[from, to, weight]` triples, together with
    the walks and walk costs used to state what a shortest route is. */
module Graph {
  import opened Wrappers

  /** Landmark keys are plain strings. */
  type Key = string

  /** A landmark: a 3D position and its display label (`label` in the source; `title` here, since `label` is a Dafny keyword). */
  datatype Node = Node(x: real, y: real, z: real, title: string)

  /** A `[from, to, weight]` triple. The solver reads every triple in both directions. */
  datatype Edge = Edge(from: Key, to: Key, weight: real)

  predicate Distinct<T(==)>(s: seq<T>) {
    forall i, j :: 0 <= i < j < |s| ==> s[i] != s[j]
  }

  /** A plain JavaScript object used as a node table: `order` is the enumeration
      order of its own keys (insertion order) and `entries` its key/value pairs. */
  datatype NodeMap = NodeMap(order: seq<Key>, entries: map<Key, Node>) {
    ghost predicate Valid() {
      Distinct(order) && forall k :: k in entries <==> k in order
    }
  }

  const EmptyNodes: NodeMap := NodeMap([], map[])

  /** `obj[k] = n`: a new key goes to the end of the enumeration order, an existing
      key keeps its place and has its value overwritten (last write wins). */
  function Put(m: NodeMap, k: Key, n: Node): (r: NodeMap)
    requires m.Valid()
    ensures r.Valid()
  {
    if k in m.entries then NodeMap(m.order, m.entries[k := n])
    else NodeMap(m.order + [k], m.entries[k := n])
  }

  /** The triple joins `u` and `v`, in either direction. */
  predicate Connects(e: Edge, u: Key, v: Key) {
    (e.from == u && e.to == v) || (e.from == v && e.to == u)
  }

  predicate NonNegative(es: seq<Edge>) {
    forall i :: 0 <= i < |es| ==> es[i].weight >= 0.0
  }

  /** The smallest weight among the triples joining `u` and `v`, if any. */
  function MinWeight(es: seq<Edge>, u: Key, v: Key): Option<real>
    decreases |es|
  {
    if |es| == 0 then None
    else
      var m := MinWeight(es[..|es| - 1], u, v);
      var e := es[|es| - 1];
      if !Connects(e, u, v) then m
      else if m.Some? && m.value <= e.weight then m
      else Some(e.weight)
  }

  /** `MinWeight` is absent exactly when no triple joins `u` and `v`, and otherwise is the
      weight of some joining triple and no more than that of any joining triple. */
  lemma {:induction false} MinWeightSpec(es: seq<Edge>, u: Key, v: Key)
    ensures MinWeight(es, u, v).None? <==> forall i :: 0 <= i < |es| ==> !Connects(es[i], u, v)
    ensures MinWeight(es, u, v).Some? ==>
              exists i :: 0 <= i < |es| && Connects(es[i], u, v) && es[i].weight == MinWeight(es, u, v).value
    ensures MinWeight(es, u, v).Some? ==>
              forall i :: 0 <= i < |es| && Connects(es[i], u, v) ==> MinWeight(es, u, v).value <= es[i].weight
    decreases |es|
  {
    if |es| > 0 {
      var init := es[..|es| - 1];
      MinWeightSpec(init, u, v);
      assert forall i :: 0 <= i < |init| ==> init[i] == es[i];
    }
  }

  /** One more triple at the end of the list changes the cheapest weight only if it joins the
      pair and is strictly cheaper. */
  lemma MinWeightSnoc(es: seq<Edge>, e: Edge, u: Key, w: Key)
    ensures MinWeight(es + [e], u, w) ==
              if !Connects(e, u, w) then MinWeight(es, u, w)
              else if MinWeight(es, u, w).Some? && MinWeight(es, u, w).value <= e.weight then MinWeight(es, u, w)
              else Some(e.weight)
  {
    assert (es + [e])[..|es|] == es;
  }

  lemma MinWeightNonNegative(es: seq<Edge>, u: Key, v: Key)
    requires NonNegative(es) && MinWeight(es, u, v).Some?
    ensures MinWeight(es, u, v).value >= 0.0
  {
    MinWeightSpec(es, u, v);
    var i :| 0 <= i < |es| && Connects(es[i], u, v) && es[i].weight == MinWeight(es, u, v).value;
  }

  /** Every consecutive pair of `p` is joined by some triple. */
  ghost predicate Linked(es: seq<Edge>, p: seq<Key>) {
    forall i :: 0 <= i < |p| - 1 ==> MinWeight(es, p[i], p[i + 1]).Some?
  }

  /** A non-empty sequence of keys of `known`, consecutive keys joined by a triple. */
  ghost predicate IsWalk(es: seq<Edge>, known: set<Key>, p: seq<Key>) {
    && |p| >= 1
    && (forall i :: 0 <= i < |p| ==> p[i] in known)
    && Linked(es, p)
  }

  /** The cost of a walk: for each step, the cheapest triple joining its two keys. */
  ghost function Cost(es: seq<Edge>, p: seq<Key>): real
    requires Linked(es, p)
    decreases |p|
  {
    if |p| <= 1 then 0.0
    else
      assert Linked(es, p[..|p| - 1]);
      Cost(es, p[..|p| - 1]) + MinWeight(es, p[|p| - 2], p[|p| - 1]).value
  }

  ghost predicate Reachable(es: seq<Edge>, known: set<Key>, s: Key, t: Key) {
    exists p :: IsWalk(es, known, p) && p[0] == s && p[|p| - 1] == t
  }

  /** `d` is no more than the cost of any walk from `s` to `t`. */
  ghost predicate Shortest(es: seq<Edge>, known: set<Key>, s: Key, t: Key, d: real) {
    forall p :: IsWalk(es, known, p) && p[0] == s && p[|p| - 1] == t ==> d <= Cost(es, p)
  }

  /** Triples are undirected: the cheapest weight between `u` and `v` is that between `v` and `u`. */
  lemma {:induction false} MinWeightSymmetric(es: seq<Edge>, u: Key, v: Key)
    ensures MinWeight(es, u, v) == MinWeight(es, v, u)
    decreases |es|
  {
    if |es| > 0 {
      MinWeightSymmetric(es[..|es| - 1], u, v);
    }
  }

  /** With non-negative weights, walk costs are non-negative. */
  lemma {:induction false} CostNonNegative(es: seq<Edge>, p: seq<Key>)
    requires NonNegative(es) && Linked(es, p)
    ensures Cost(es, p) >= 0.0
    decreases |p|
  {
    if |p| > 1 {
      assert Linked(es, p[..|p| - 1]);
      CostNonNegative(es, p[..|p| - 1]);
      MinWeightNonNegative(es, p[|p| - 2], p[|p| - 1]);
    }
  }

  /** With non-negative weights, a prefix of a walk costs no more than the walk. */
  lemma {:induction false} CostPrefix(es: seq<Edge>, p: seq<Key>, i: nat)
    requires NonNegative(es) && Linked(es, p)
    requires 1 <= i <= |p|
    ensures Linked(es, p[..i])
    ensures Cost(es, p[..i]) <= Cost(es, p)
    decreases |p|
  {
    if i < |p| {
      var q := p[..|p| - 1];
      assert Linked(es, q);
      assert q[..i] == p[..i];
      CostPrefix(es, q, i);
      MinWeightNonNegative(es, p[|p| - 2], p[|p| - 1]);
    } else {
      assert p[..i] == p;
    }
  }

  /** The cost of a walk telescopes over a table `d` whose entries grow along
      each step by exactly the step's cheapest weight. */
  lemma {:induction false} CostTelescopes(es: seq<Edge>, p: seq<Key>, d: map<Key, real>)
    requires |p| >= 1
    requires forall i :: 0 <= i < |p| ==> p[i] in d
    requires Linked(es, p)
    requires forall i :: 0 <= i < |p| - 1 ==> d[p[i + 1]] == d[p[i]] + MinWeight(es, p[i], p[i + 1]).value
    ensures Cost(es, p) == d[p[|p| - 1]] - d[p[0]]
    decreases |p|
  {
    if |p| > 1 {
      var q := p[..|p| - 1];
      assert Linked(es, q);
      CostTelescopes(es, q, d);
    }
  }
}

=== FILE: landmarks.dfy ===
/**
 * What the two landmark-marking tools share: the name-to-key normalisation
 * (`name.toLowerCase().replace(/\s+/g, "_")`), the "is the name blank" guard
 * (`!name.trim()`), and the fold of a marker list into a node table, in which a
 * later marker with the same key overwrites an earlier one.
 */
module Landmarks {
  import opened Graph

  /** A marked location: the name typed by the user and the camera position it was taken at. */
  datatype Marker = Marker(name: string, x: real, y: real, z: real)

  /** The ECMAScript white-space and line-terminator characters: what `\s` matches and what
      `trim` removes. */
  predicate IsSpace(c: char) {
    || c == '\t' || c == '\n' || c == '\U{000B}' || c == '\U{000C}' || c == '\r' || c == ' '
    || c == '\U{00A0}' || c == '\U{1680}' || ('\U{2000}' <= c <= '\U{200A}')
    || c == '\U{2028}' || c == '\U{2029}' || c == '\U{202F}' || c == '\U{205F}' || c == '\U{3000}'
    || c == '\U{FEFF}'
  }

  /** `!name.trim()`: the name is empty once surrounding white space is removed. */
  predicate Blank(name: string) {
    forall i :: 0 <= i < |name| ==> IsSpace(name[i])
  }

  predicate NoSpace(s: string) {
    forall i :: 0 <= i < |s| ==> !IsSpace(s[i])
  }

  /** Lower-casing of one character (ASCII letters only). */
  function LowerChar(c: char): char {
    if 'A' <= c <= 'Z' then (c as int + 32) as char else c
  }

  function Lower(s: string): (r: string)
    ensures |r| == |s| && forall i :: 0 <= i < |s| ==> r[i] == LowerChar(s[i])
  {
    seq(|s|, i requires 0 <= i < |s| => LowerChar(s[i]))
  }

  /** The rest of `s` after its leading white space. */
  function DropSpaces(s: string): (r: string)
    ensures |r| <= |s| && r == s[|s| - |r|..]
    ensures |r| > 0 ==> !IsSpace(r[0])
    ensures Blank(s[..|s| - |r|])
    decreases |s|
  {
    if |s| > 0 && IsSpace(s[0]) then
      var r := DropSpaces(s[1..]);
      assert s[1..][..|s| - 1 - |r|] == s[1..|s| - |r|];
      r
    else s
  }

  /** `replace(/\s+/g, "_")`: every maximal run of white space becomes one underscore. */
  function Collapse(s: string): string
    decreases |s|
  {
    if |s| == 0 then ""
    else if IsSpace(s[0]) then "_" + Collapse(DropSpaces(s[1..]))
    else [s[0]] + Collapse(s[1..])
  }

  /** The node key of a marker name. */
  function KeyOf(name: string): Key {
    Collapse(Lower(name))
  }

  // ---------------------------------------------------------------------------
  // Properties of the normalisation

  /** A collapsed string has no white space left in it. */
  lemma {:induction false} CollapseNoSpace(s: string)
    ensures NoSpace(Collapse(s))
    decreases |s|
  {
    if |s| > 0 {
      if IsSpace(s[0]) {
        CollapseNoSpace(DropSpaces(s[1..]));
      } else {
        CollapseNoSpace(s[1..]);
      }
    }
  }

  /** A string without white space is its own collapse. */
  lemma {:induction false} CollapseIdentity(s: string)
    requires NoSpace(s)
    ensures Collapse(s) == s
    decreases |s|
  {
    if |s| > 0 {
      CollapseIdentity(s[1..]);
    }
  }

  /** Collapsing twice is collapsing once. */
  lemma CollapseIdempotent(s: string)
    ensures Collapse(Collapse(s)) == Collapse(s)
  {
    CollapseNoSpace(s);
    CollapseIdentity(Collapse(s));
  }

  /** Collapsing empties only the empty string, and never lengthens. */
  lemma {:induction false} CollapseLength(s: string)
    ensures |Collapse(s)| <= |s|
    ensures Collapse(s) == "" <==> s == ""
    decreases |s|
  {
    if |s| > 0 {
      if IsSpace(s[0]) {
        CollapseLength(DropSpaces(s[1..]));
      } else {
        CollapseLength(s[1..]);
      }
    }
  }

  /** A whole run of white space, however long, becomes a single underscore. */
  lemma CollapseRun(run: string, t: string)
    requires |run| > 0 && Blank(run)
    requires |t| == 0 || !IsSpace(t[0])
    ensures Collapse(run + t) == "_" + Collapse(t)
  {
    DropAll(run[1..], t);
    assert (run + t)[1..] == run[1..] + t;
  }

  lemma {:induction false} DropAll(run: string, t: string)
    requires Blank(run)
    requires |t| == 0 || !IsSpace(t[0])
    ensures DropSpaces(run + t) == t
    decreases |run|
  {
    if |run| > 0 {
      assert (run + t)[1..] == run[1..] + t;
      DropAll(run[1..], t);
    }
  }

  /** Each character replaced on its own: white space by an underscore. */
  function ReplaceEach(s: string): (r: string)
    ensures |r| == |s|
  {
    seq(|s|, i requires 0 <= i < |s| => if IsSpace(s[i]) then '_' else s[i])
  }

  /** With no two white-space characters adjacent, every run has length one, so collapsing
      is replacing character by character. */
  lemma {:induction false} CollapseSingles(s: string)
    requires forall i :: 1 <= i < |s| && IsSpace(s[i]) ==> !IsSpace(s[i - 1])
    ensures Collapse(s) == ReplaceEach(s)
    decreases |s|
  {
    if |s| > 0 {
      var t := s[1..];
      assert forall i :: 1 <= i < |t| && IsSpace(t[i]) ==> !IsSpace(t[i - 1]) by {
        forall i | 1 <= i < |t| && IsSpace(t[i])
          ensures !IsSpace(t[i - 1])
        {
          assert t[i] == s[i + 1] && t[i - 1] == s[i];
        }
      }
      CollapseSingles(t);
      if IsSpace(s[0]) && |t| > 0 {
        assert !IsSpace(t[0]) by {
          assert t[0] == s[1];
        }
      }
      assert ReplaceEach(s) == ReplaceEach(s[..1]) + ReplaceEach(t);
    }
  }

  /** A marker's key is white-space free, and empty only for the empty name. */
  lemma KeyOfShape(name: string)
    ensures NoSpace(KeyOf(name))
    ensures KeyOf(name) == "" <==> name == ""
    ensures KeyOf(KeyOf(name)) == KeyOf(name)
  {
    CollapseNoSpace(Lower(name));
    CollapseLength(Lower(name));
    var k := KeyOf(name);
    assert Lower(k) == k by {
      forall i | 0 <= i < |k|
        ensures Lower(k)[i] == k[i]
      {
        LowerOfLower(Lower(name), i);
      }
    }
    CollapseIdempotent(Lower(name));
  }

  /** Lower-casing is idempotent character by character, and collapsed strings come from
      lower-cased ones. */
  lemma LowerOfLower(s: string, i: int)
    requires forall j :: 0 <= j < |s| ==> LowerChar(s[j]) == s[j]
    requires 0 <= i < |Collapse(s)|
    ensures LowerChar(Collapse(s)[i]) == Collapse(s)[i]
  {
    CollapseLowered(s);
  }

  lemma {:induction false} CollapseLowered(s: string)
    requires forall j :: 0 <= j < |s| ==> LowerChar(s[j]) == s[j]
    ensures forall j :: 0 <= j < |Collapse(s)| ==> LowerChar(Collapse(s)[j]) == Collapse(s)[j]
    decreases |s|
  {
    if |s| > 0 {
      if IsSpace(s[0]) {
        var d := DropSpaces(s[1..]);
        assert forall j :: 0 <= j < |d| ==> d[j] == s[|s| - |d| + j];
        CollapseLowered(d);
      } else {
        CollapseLowered(s[1..]);
      }
    }
  }

  // ---------------------------------------------------------------------------
  // The node table

  function NodeOf(m: Marker): Node {
    Node(m.x, m.y, m.z, m.name)
  }

  /** The keys of the markers, in marker order. */
  function Keys(ms: seq<Marker>): (ks: seq<Key>)
    ensures |ks| == |ms| && forall i :: 0 <= i < |ms| ==> ks[i] == KeyOf(ms[i].name)
  {
    seq(|ms|, i requires 0 <= i < |ms| => KeyOf(ms[i].name))
  }

  /** The nodes of the markers, in marker order. */
  function Nodes(ms: seq<Marker>): (ns: seq<Node>)
    ensures |ns| == |ms| && forall i :: 0 <= i < |ms| ==> ns[i] == NodeOf(ms[i])
  {
    seq(|ms|, i requires 0 <= i < |ms| => NodeOf(ms[i]))
  }

  /** `nodes[ks[i]] = ns[i]` for each `i` in turn, starting from `{}`. */
  function PutAll(ks: seq<Key>, ns: seq<Node>): (r: NodeMap)
    requires |ks| == |ns|
    ensures r.Valid()
    decreases |ks|
  {
    if |ks| == 0 then EmptyNodes
    else Put(PutAll(ks[..|ks| - 1], ns[..|ns| - 1]), ks[|ks| - 1], ns[|ns| - 1])
  }

  /** `ms.forEach(m => nodes[key(m)] = {x, y, z, label: m.name})`, starting from `{}`. */
  function BuildNodes(ms: seq<Marker>): (r: NodeMap)
    ensures r.Valid()
  {
    PutAll(Keys(ms), Nodes(ms))
  }

  /** `i` is the last position holding its key. */
  predicate LastAt(ks: seq<Key>, i: int)
    requires 0 <= i < |ks|
  {
    forall j :: i < j < |ks| ==> ks[j] != ks[i]
  }

  /** The first position holding `k`, or `|ks|` if there is none. */
  function FirstIndex(ks: seq<Key>, k: Key): nat
    decreases |ks|
  {
    if |ks| == 0 then 0
    else if ks[0] == k then 0
    else 1 + FirstIndex(ks[1..], k)
  }

  /** `FirstIndex` finds the first occurrence, and runs off the end exactly for an absent key. */
  lemma {:induction false} FirstIndexSpec(ks: seq<Key>, k: Key)
    ensures FirstIndex(ks, k) <= |ks|
    ensures FirstIndex(ks, k) < |ks| ==> ks[FirstIndex(ks, k)] == k
    ensures FirstIndex(ks, k) == |ks| <==> k !in ks
    ensures forall j :: 0 <= j < FirstIndex(ks, k) ==> ks[j] != k
    decreases |ks|
  {
    if |ks| > 0 && ks[0] != k {
      FirstIndexSpec(ks[1..], k);
      assert forall j :: 1 <= j < |ks| ==> ks[j] == ks[1..][j - 1];
    }
  }

  /** The table holds exactly the keys written. */
  lemma {:induction false} PutAllKeys(ks: seq<Key>, ns: seq<Node>)
    requires |ks| == |ns|
    ensures forall k :: k in PutAll(ks, ns).entries <==> k in ks
    decreases |ks|
  {
    if |ks| > 0 {
      PutAllKeys(ks[..|ks| - 1], ns[..|ns| - 1]);
      assert ks == ks[..|ks| - 1] + [ks[|ks| - 1]];
    }
  }

  /** Last write wins: each key is bound to the value of its last write. */
  lemma {:induction false} PutAllLast(ks: seq<Key>, ns: seq<Node>)
    requires |ks| == |ns|
    ensures forall i :: 0 <= i < |ks| && LastAt(ks, i) ==> ks[i] in PutAll(ks, ns).entries && PutAll(ks, ns).entries[ks[i]] == ns[i]
    decreases |ks|
  {
    if |ks| > 0 {
      var ki, ni := ks[..|ks| - 1], ns[..|ns| - 1];
      PutAllLast(ki, ni);
      forall i | 0 <= i < |ks| - 1 && LastAt(ks, i)
        ensures LastAt(ki, i)
      {
        forall j | i < j < |ki|
          ensures ki[j] != ki[i]
        {
          assert ki[j] == ks[j] && ki[i] == ks[i];
        }
      }
    }
  }

  /** `order` lists keys in order of their first position in `ks`. */
  predicate FirstAppearance(ks: seq<Key>, order: seq<Key>) {
    forall a, b :: 0 <= a < b < |order| ==> FirstIndex(ks, order[a]) < FirstIndex(ks, order[b])
  }

  /** Keys are enumerated in order of their first write. */
  lemma {:induction false} PutAllOrder(ks: seq<Key>, ns: seq<Node>)
    requires |ks| == |ns|
    ensures FirstAppearance(ks, PutAll(ks, ns).order)
    decreases |ks|
  {
    if |ks| > 0 {
      var ki, ni := ks[..|ks| - 1], ns[..|ns| - 1];
      PutAllOrder(ki, ni);
      PutAllKeys(ki, ni);
      var prev := PutAll(ki, ni);
      var r := PutAll(ks, ns);
      assert r.order[..|prev.order|] == prev.order;
      forall a | 0 <= a < |prev.order|
        ensures FirstIndex(ks, prev.order[a]) == FirstIndex(ki, prev.order[a]) < |ks| - 1
      {
        assert prev.order[a] in prev.entries;
        FirstIndexPrefix(ks, prev.order[a]);
      }
      if ks[|ks| - 1] !in prev.entries {
        FirstIndexLast(ks);
      }
      forall a, b | 0 <= a < b < |r.order|
        ensures FirstIndex(ks, r.order[a]) < FirstIndex(ks, r.order[b])
      {
        assert r.order[a] == prev.order[a];
        if b < |prev.order| {
          assert r.order[b] == prev.order[b];
          assert FirstIndex(ki, prev.order[a]) < FirstIndex(ki, prev.order[b]);
        } else {
          assert ks[|ks| - 1] !in prev.entries;
          assert r.order[b] == ks[|ks| - 1];
        }
      }
    }
  }

  /** Keys already written in a prefix keep their first position. */
  lemma {:induction false} FirstIndexPrefix(ks: seq<Key>, k: Key)
    requires |ks| > 0 && k in ks[..|ks| - 1]
    ensures FirstIndex(ks, k) == FirstIndex(ks[..|ks| - 1], k) < |ks| - 1
    decreases |ks|
  {
    if ks[0] != k {
      assert ks[1..][..|ks| - 2] == ks[..|ks| - 1][1..];
      FirstIndexPrefix(ks[1..], k);
    }
  }

  /** A key not written before the last write first appears there. */
  lemma {:induction false} FirstIndexLast(ks: seq<Key>)
    requires |ks| > 0 && ks[|ks| - 1] !in ks[..|ks| - 1]
    ensures FirstIndex(ks, ks[|ks| - 1]) == |ks| - 1
    decreases |ks|
  {
    if |ks| > 1 {
      assert ks[0] in ks[..|ks| - 1];
      assert ks[1..][..|ks| - 2] == ks[..|ks| - 1][1..];
      FirstIndexLast(ks[1..]);
    }
  }

  /** The marker table holds exactly the markers' keys. */
  lemma BuildNodesKeys(ms: seq<Marker>)
    ensures BuildNodes(ms).Valid()
    ensures forall k :: k in BuildNodes(ms).entries <==> exists i :: 0 <= i < |ms| && KeyOf(ms[i].name) == k
  {
    var ks := Keys(ms);
    PutAllKeys(ks, Nodes(ms));
    forall k | k in BuildNodes(ms).entries
      ensures exists i :: 0 <= i < |ms| && KeyOf(ms[i].name) == k
    {
      var i :| 0 <= i < |ks| && ks[i] == k;
    }
  }

  /** Each key is bound to the node of the last marker carrying it, labelled with that
      marker's original name. */
  lemma BuildNodesLast(ms: seq<Marker>, i: int)
    requires 0 <= i < |ms|
    requires forall j :: i < j < |ms| ==> KeyOf(ms[j].name) != KeyOf(ms[i].name)
    ensures KeyOf(ms[i].name) in BuildNodes(ms).entries
    ensures BuildNodes(ms).entries[KeyOf(ms[i].name)] == NodeOf(ms[i])
    ensures BuildNodes(ms).entries[KeyOf(ms[i].name)].title == ms[i].name
  {
    var ks := Keys(ms);
    PutAllLast(ks, Nodes(ms));
    assert LastAt(ks, i);
  }

  /** Keys are enumerated in order of first appearance among the markers. */
  lemma BuildNodesOrder(ms: seq<Marker>)
    ensures FirstAppearance(Keys(ms), BuildNodes(ms).order)
  {
    PutAllOrder(Keys(ms), Nodes(ms));
  }

  /** Every marker carries a name that is not blank, as both marking actions ensure. */
  ghost predicate Named(ms: seq<Marker>) {
    forall i :: 0 <= i < |ms| ==> !Blank(ms[i].name)
  }

  /** Named markers give a table without the empty key. */
  lemma NamedKeys(ms: seq<Marker>)
    requires Named(ms)
    ensures "" !in BuildNodes(ms).entries
  {
    BuildNodesKeys(ms);
    if "" in BuildNodes(ms).entries {
      var i :| 0 <= i < |ms| && KeyOf(ms[i].name) == "";
      KeyOfShape(ms[i].name);
      assert false;
    }
  }

  // ---------------------------------------------------------------------------
  // Marker chains

  /** A generated map: the node table and the triples joining consecutive markers. */
  datatype Config = Config(nodes: NodeMap, edges: seq<Edge>)

  /** The distance from each marker to the next, in marker order. */
  function Gaps(ms: seq<Marker>, dist: (Marker, Marker) -> real): (ws: seq<real>)
    ensures |ws| == (if |ms| < 2 then 0 else |ms| - 1)
    ensures forall i :: 1 <= i < |ms| ==> ws[i - 1] == dist(ms[i - 1], ms[i])
  {
    if |ms| < 2 then [] else seq(|ms| - 1, i requires 0 <= i < |ms| - 1 => dist(ms[i], ms[i + 1]))
  }

  /** Consecutive keys of `ks` are joined by some triple of `es`. */
  ghost predicate ChainLinked(es: seq<Edge>, ks: seq<Key>) {
    forall t :: 1 <= t < |ks| ==> MinWeight(es, ks[t - 1], ks[t]).Some?
  }

  /** Along a linked chain of known keys every key reaches every other, forwards and, since
      triples are read both ways, backwards. */
  lemma ChainReachable(es: seq<Edge>, known: set<Key>, ks: seq<Key>, i: int, j: int)
    requires ChainLinked(es, ks) && forall t :: 0 <= t < |ks| ==> ks[t] in known
    requires 0 <= i < |ks| && 0 <= j < |ks|
    ensures Reachable(es, known, ks[i], ks[j])
  {
    if i <= j {
      var p := ks[i..j + 1];
      forall t | 0 <= t < |p| - 1
        ensures MinWeight(es, p[t], p[t + 1]).Some?
      {
        assert p[t] == ks[i + t + 1 - 1] && p[t + 1] == ks[i + t + 1];
      }
      assert IsWalk(es, known, p);
    } else {
      var p := seq(i - j + 1, t requires 0 <= t <= i - j => ks[i - t]);
      forall t | 0 <= t < |p| - 1
        ensures MinWeight(es, p[t], p[t + 1]).Some?
      {
        var h := i - t;
        assert p[t] == ks[h] && p[t + 1] == ks[h - 1];
        MinWeightSymmetric(es, ks[h - 1], ks[h]);
      }
      assert IsWalk(es, known, p);
    }
  }
}

=== FILE: map2d.dfy ===
/**
 * The 2D map: the bounding box of the landmarks padded by two units, scaled by 40 into an
 * SVG picture with the y axis pointing down, one line per triple, one line per step of the
 * current route and one dot per landmark.
 */
module Map2D {
  import opened Wrappers
  import opened Graph
  import opened Reals

  const Scale: real := 40.0
  const Padding: real := 2.0

  /** The padded bounding box, in map units. */
  datatype Box = Box(minX: real, maxX: real, minY: real, maxY: real)

  /** A drawn line, in picture units. */
  datatype Segment = Segment(x1: real, y1: real, x2: real, y2: real)

  /** A point of the picture. */
  datatype Point = Point(px: real, py: real)

  /** The picture: its box, the triples' lines, the route's lines and the landmark dots. */
  datatype Picture = Picture(box: Box, edgeLines: seq<Segment>, pathLines: seq<Segment>, dots: seq<Point>)

  /** `Object.values`: the landmarks in enumeration order. */
  function Values(nodes: NodeMap): (vs: seq<Node>)
    requires nodes.Valid()
    ensures |vs| == |nodes.order| && forall i :: 0 <= i < |vs| ==> vs[i] == nodes.entries[nodes.order[i]]
  {
    seq(|nodes.order|, i requires 0 <= i < |nodes.order| => nodes.entries[nodes.order[i]])
  }

  /** `Math.min(...xs)` for a non-empty list. */
  function MinOf(xs: seq<real>): real
    requires |xs| > 0
  {
    if |xs| == 1 then xs[0] else Min(xs[0], MinOf(xs[1..]))
  }

  /** `Math.max(...xs)` for a non-empty list. */
  function MaxOf(xs: seq<real>): real
    requires |xs| > 0
  {
    if |xs| == 1 then xs[0] else Max(xs[0], MaxOf(xs[1..]))
  }

  /** The minimum is one of the values and no value is below it. */
  lemma {:induction false} MinOfSpec(xs: seq<real>)
    requires |xs| > 0
    ensures exists i :: 0 <= i < |xs| && xs[i] == MinOf(xs)
    ensures forall i :: 0 <= i < |xs| ==> MinOf(xs) <= xs[i]
  {
    if |xs| > 1 {
      var tail := xs[1..];
      MinOfSpec(tail);
      var j :| 0 <= j < |tail| && tail[j] == MinOf(tail);
      if xs[0] <= MinOf(tail) {
        assert xs[0] == MinOf(xs);
      } else {
        assert xs[j + 1] == tail[j] == MinOf(xs);
      }
      forall i | 1 <= i < |xs|
        ensures MinOf(xs) <= xs[i]
      {
        assert xs[i] == tail[i - 1];
      }
    } else {
      assert xs[0] == MinOf(xs);
    }
  }

  /** The maximum is one of the values and no value is above it. */
  lemma {:induction false} MaxOfSpec(xs: seq<real>)
    requires |xs| > 0
    ensures exists i :: 0 <= i < |xs| && xs[i] == MaxOf(xs)
    ensures forall i :: 0 <= i < |xs| ==> xs[i] <= MaxOf(xs)
  {
    if |xs| > 1 {
      var tail := xs[1..];
      MaxOfSpec(tail);
      var j :| 0 <= j < |tail| && tail[j] == MaxOf(tail);
      if xs[0] >= MaxOf(tail) {
        assert xs[0] == MaxOf(xs);
      } else {
        assert xs[j + 1] == tail[j] == MaxOf(xs);
      }
      forall i | 1 <= i < |xs|
        ensures xs[i] <= MaxOf(xs)
      {
        assert xs[i] == tail[i - 1];
      }
    } else {
      assert xs[0] == MaxOf(xs);
    }
  }

  function Xs(vs: seq<Node>): (xs: seq<real>)
    ensures |xs| == |vs| && forall i :: 0 <= i < |vs| ==> xs[i] == vs[i].x
  {
    seq(|vs|, i requires 0 <= i < |vs| => vs[i].x)
  }

  function Ys(vs: seq<Node>): (ys: seq<real>)
    ensures |ys| == |vs| && forall i :: 0 <= i < |vs| ==> ys[i] == vs[i].y
  {
    seq(|vs|, i requires 0 <= i < |vs| => vs[i].y)
  }

  /** The padded bounds of the landmarks; an empty table has none (the source's bounds are
      then infinite). */
  function Bounds(nodes: NodeMap): (r: Option<Box>)
    requires nodes.Valid()
    ensures r.None? <==> |nodes.order| == 0
  {
    var vs := Values(nodes);
    if |vs| == 0 then None
    else Some(Box(MinOf(Xs(vs)) - Padding, MaxOf(Xs(vs)) + Padding, MinOf(Ys(vs)) - Padding, MaxOf(Ys(vs)) + Padding))
  }

  /** Every landmark lies at least the padding inside the box, and the box touches the
      extreme landmarks on each side at exactly the padding. */
  lemma BoundsSpec(nodes: NodeMap)
    requires nodes.Valid()
    ensures Bounds(nodes).None? <==> nodes.entries == map[]
    ensures Bounds(nodes).Some? ==>
              var b := Bounds(nodes).value;
              && (forall k :: k in nodes.entries ==>
                    && b.minX + Padding <= nodes.entries[k].x <= b.maxX - Padding
                    && b.minY + Padding <= nodes.entries[k].y <= b.maxY - Padding)
              && (exists k :: k in nodes.entries && nodes.entries[k].x == b.minX + Padding)
              && (exists k :: k in nodes.entries && nodes.entries[k].x == b.maxX - Padding)
              && (exists k :: k in nodes.entries && nodes.entries[k].y == b.minY + Padding)
              && (exists k :: k in nodes.entries && nodes.entries[k].y == b.maxY - Padding)
  {
    var vs := Values(nodes);
    if |vs| == 0 {
      assert forall k :: k !in nodes.entries;
    } else {
      assert nodes.order[0] in nodes.entries;
      var xs, ys := Xs(vs), Ys(vs);
      MinOfSpec(xs);
      MaxOfSpec(xs);
      MinOfSpec(ys);
      MaxOfSpec(ys);
      forall k | k in nodes.entries
        ensures MinOf(xs) <= nodes.entries[k].x <= MaxOf(xs)
        ensures MinOf(ys) <= nodes.entries[k].y <= MaxOf(ys)
      {
        var i :| 0 <= i < |nodes.order| && nodes.order[i] == k;
        assert xs[i] == nodes.entries[k].x && ys[i] == nodes.entries[k].y;
      }
      var a :| 0 <= a < |xs| && xs[a] == MinOf(xs);
      var c :| 0 <= c < |xs| && xs[c] == MaxOf(xs);
      var d :| 0 <= d < |ys| && ys[d] == MinOf(ys);
      var e :| 0 <= e < |ys| && ys[e] == MaxOf(ys);
      assert nodes.order[a] in nodes.entries && nodes.entries[nodes.order[a]].x == MinOf(xs);
      assert nodes.order[c] in nodes.entries && nodes.entries[nodes.order[c]].x == MaxOf(xs);
      assert nodes.order[d] in nodes.entries && nodes.entries[nodes.order[d]].y == MinOf(ys);
      assert nodes.order[e] in nodes.entries && nodes.entries[nodes.order[e]].y == MaxOf(ys);
    }
  }

  function Width(b: Box): real { (b.maxX - b.minX) * Scale }
  function Height(b: Box): real { (b.maxY - b.minY) * Scale }

  /** `mapX`: map units to picture units, left edge of the box at 0. */
  function MapX(b: Box, x: real): (px: real)
    ensures UnmapX(b, px) == x
  {
    (x - b.minX) * Scale
  }

  /** `mapY`: map units to picture units, flipped so that the top edge of the box is at 0. */
  function MapY(b: Box, y: real): (py: real)
    ensures UnmapY(b, py) == y
  {
    Height(b) - (y - b.minY) * Scale
  }

  /** The inverse of `MapX`. */
  function UnmapX(b: Box, px: real): real { px / Scale + b.minX }

  /** The inverse of `MapY`. */
  function UnmapY(b: Box, py: real): real { b.maxY - py / Scale }

  /** The projection keeps the order of x and reverses the order of y, takes the box edges
      to the picture edges, and the unmap functions invert it both ways. */
  lemma Projection(b: Box, x: real, x': real, y: real, y': real, px: real, py: real)
    ensures x < x' <==> MapX(b, x) < MapX(b, x')
    ensures y < y' <==> MapY(b, y') < MapY(b, y)
    ensures MapX(b, b.minX) == 0.0 && MapX(b, b.maxX) == Width(b)
    ensures MapY(b, b.maxY) == 0.0 && MapY(b, b.minY) == Height(b)
    ensures UnmapX(b, MapX(b, x)) == x && MapX(b, UnmapX(b, px)) == px
    ensures UnmapY(b, MapY(b, y)) == y && MapY(b, UnmapY(b, py)) == py
  {
  }

  /** The picture is at least four units of padding, 160 picture units, wide and high, and
      every landmark is drawn at least 80 picture units inside its edges. */
  lemma PictureMargins(nodes: NodeMap)
    requires nodes.Valid() && Bounds(nodes).Some?
    ensures var b := Bounds(nodes).value;
            && Width(b) >= 2.0 * Padding * Scale && Height(b) >= 2.0 * Padding * Scale
            && forall k :: k in nodes.entries ==>
                 && Padding * Scale <= MapX(b, nodes.entries[k].x) <= Width(b) - Padding * Scale
                 && Padding * Scale <= MapY(b, nodes.entries[k].y) <= Height(b) - Padding * Scale
  {
    BoundsSpec(nodes);
    var k :| k in nodes.entries;
  }

  /** Where a landmark is drawn. */
  function Place(b: Box, n: Node): Point {
    Point(MapX(b, n.x), MapY(b, n.y))
  }

  function Line(p: Point, q: Point): Segment {
    Segment(p.px, p.py, q.px, q.py)
  }

  /** The triples' `<line>` elements, one per triple; a lookup of a key the table lacks fails. */
  function EdgeLines(nodes: NodeMap, b: Box, es: seq<Edge>): (r: Option<seq<Segment>>)
    ensures r.Some? ==> |r.value| == |es|
    decreases |es|
  {
    if |es| == 0 then Some([])
    else
      var e := es[|es| - 1];
      match EdgeLines(nodes, b, es[..|es| - 1])
      case None => None
      case Some(ls) =>
        if e.from in nodes.entries && e.to in nodes.entries
        then Some(ls + [Line(Place(b, nodes.entries[e.from]), Place(b, nodes.entries[e.to]))])
        else None
  }

  /** The triples' lines exist exactly when every endpoint is in the table, one per triple,
      each from its `from` landmark to its `to` landmark. */
  lemma {:induction false} EdgeLinesSpec(nodes: NodeMap, b: Box, es: seq<Edge>)
    ensures EdgeLines(nodes, b, es).Some? <==>
              forall i :: 0 <= i < |es| ==> es[i].from in nodes.entries && es[i].to in nodes.entries
    ensures EdgeLines(nodes, b, es).Some? ==>
              var ls := EdgeLines(nodes, b, es).value;
              && |ls| == |es|
              && forall i :: 0 <= i < |es| ==>
                   ls[i] == Line(Place(b, nodes.entries[es[i].from]), Place(b, nodes.entries[es[i].to]))
    decreases |es|
  {
    if |es| > 0 {
      var init := es[..|es| - 1];
      EdgeLinesSpec(nodes, b, init);
      assert forall i :: 0 <= i < |init| ==> init[i] == es[i];
    }
  }

  /** The route's `<line>` elements, one per step: line `i` joins keys `i - 1` and `i`, so
      a route of one key is never looked up. */
  function PathLines(nodes: NodeMap, b: Box, path: seq<Key>): (r: Option<seq<Segment>>)
    ensures r.Some? ==> |r.value| == (if |path| < 2 then 0 else |path| - 1)
    decreases |path|
  {
    if |path| < 2 then Some([])
    else
      var u, v := path[|path| - 2], path[|path| - 1];
      match PathLines(nodes, b, path[..|path| - 1])
      case None => None
      case Some(ls) =>
        if u in nodes.entries && v in nodes.entries
        then Some(ls + [Line(Place(b, nodes.entries[u]), Place(b, nodes.entries[v]))])
        else None
  }

  /** The route's lines exist exactly when the route has fewer than two keys or all its keys
      are in the table; there is one per step, and each starts where the previous one ends,
      so the route is drawn as one unbroken polyline through its landmarks. */
  lemma {:induction false} PathLinesSpec(nodes: NodeMap, b: Box, path: seq<Key>)
    ensures PathLines(nodes, b, path).Some? <==>
              |path| < 2 || forall i :: 0 <= i < |path| ==> path[i] in nodes.entries
    ensures PathLines(nodes, b, path).Some? ==>
              var ls := PathLines(nodes, b, path).value;
              && |ls| == (if |path| < 2 then 0 else |path| - 1)
              && (forall i :: 1 <= i < |path| ==>
                    ls[i - 1] == Line(Place(b, nodes.entries[path[i - 1]]), Place(b, nodes.entries[path[i]])))
              && (forall i :: 1 <= i < |ls| ==> ls[i - 1].x2 == ls[i].x1 && ls[i - 1].y2 == ls[i].y1)
    decreases |path|
  {
    if |path| >= 2 {
      var init := path[..|path| - 1];
      PathLinesSpec(nodes, b, init);
      assert forall i :: 0 <= i < |init| ==> init[i] == path[i];
      if PathLines(nodes, b, path).Some? {
        var ls := PathLines(nodes, b, path).value;
        forall i | 1 <= i < |ls|
          ensures ls[i - 1].x2 == ls[i].x1 && ls[i - 1].y2 == ls[i].y1
        {
          assert ls[i - 1] == Line(Place(b, nodes.entries[path[i - 1]]), Place(b, nodes.entries[path[i]]));
          assert ls[i] == Line(Place(b, nodes.entries[path[i]]), Place(b, nodes.entries[path[i + 1]]));
        }
      }
    }
  }

  /** The component: nothing for an empty table, otherwise the picture, unless a triple or
      a step of the route names a key the table lacks. */
  function Draw(nodes: NodeMap, es: seq<Edge>, path: seq<Key>): (r: Option<Picture>)
    requires nodes.Valid()
    ensures r.Some? ==> && |nodes.order| > 0 && |r.value.dots| == |nodes.order|
                        && |r.value.edgeLines| == |es|
  {
    match Bounds(nodes)
    case None => None
    case Some(b) =>
      match (EdgeLines(nodes, b, es), PathLines(nodes, b, path))
      case (Some(el), Some(pl)) =>
        Some(Picture(b, el, pl, seq(|nodes.order|, i requires 0 <= i < |nodes.order| => Place(b, Values(nodes)[i]))))
      case _ => None
  }

  /** A picture is drawn exactly when the table is non-empty, every triple's endpoints are in
      it and so is every key of a route of two keys or more; it has one dot per landmark,
      in enumeration order, one line per triple and one per step. */
  lemma DrawSpec(nodes: NodeMap, es: seq<Edge>, path: seq<Key>)
    requires nodes.Valid()
    ensures Draw(nodes, es, path).Some? <==>
              && nodes.entries != map[]
              && (forall i :: 0 <= i < |es| ==> es[i].from in nodes.entries && es[i].to in nodes.entries)
              && (|path| < 2 || forall i :: 0 <= i < |path| ==> path[i] in nodes.entries)
    ensures Draw(nodes, es, path).Some? ==>
              var p := Draw(nodes, es, path).value;
              && |p.dots| == |nodes.order|
              && (forall i :: 0 <= i < |p.dots| ==> p.dots[i] == Place(p.box, nodes.entries[nodes.order[i]]))
              && |p.edgeLines| == |es|
              && |p.pathLines| == (if |path| < 2 then 0 else |path| - 1)
  {
    BoundsSpec(nodes);
    if Bounds(nodes).Some? {
      var b := Bounds(nodes).value;
      EdgeLinesSpec(nodes, b, es);
      PathLinesSpec(nodes, b, path);
    }
  }
}

=== FILE: playback.dfy ===
/**
 * The route-playback state of the 3D navigation view: a marker that travels along
 * the curve through the current route, driven by per-frame ticks and the Start,
 * Stop and Reset buttons, and rewound whenever the route is recomputed.
 *
 * The curve itself (a Catmull-Rom spline through the route's node positions) is a
 * foreign library object; all the state machine needs of it is whether it exists
 * and its arc length, which is taken as a given positive real.
 */
module Playback {
  import opened Graph
  import opened Reals
  import Dijkstra

  /** The progress fraction along the curve and the playing flag. */
  datatype Player = Player(progress: real, playing: bool)

  /** Nothing played yet, not playing. */
  const Initial := Player(0.0, false)

  /** A curve is built only for a route of at least two keys. */
  predicate HasCurve(route: seq<Key>) {
    |route| >= 2
  }

  /** The length the tick divides by: the curve's arc length, or 1 when there is no curve. */
  function TotalLength(route: seq<Key>, curveLength: real): real {
    if HasCurve(route) then curveLength else 1.0
  }

  /** One animation frame of `delta` seconds at `speed` units per second. */
  function Tick(p: Player, route: seq<Key>, curveLength: real, speed: real, delta: real): (r: Player)
    requires curveLength > 0.0
    ensures !p.playing || !HasCurve(route) ==> r == p
    ensures p.playing && HasCurve(route) ==> r.progress <= 1.0 && (r.playing <==> r.progress < 1.0)
  {
    if !p.playing || !HasCurve(route) then p
    else
      var q := Min(1.0, p.progress + speed * delta / TotalLength(route, curveLength));
      Player(q, q < 1.0)
  }

  /** A frame does nothing unless playing along a curve; moving forward in time it never
      moves the marker back nor past the end; and it stops playing exactly when the end is
      reached. */
  lemma TickEffect(p: Player, route: seq<Key>, curveLength: real, speed: real, delta: real)
    requires curveLength > 0.0
    ensures var r := Tick(p, route, curveLength, speed, delta);
            && (!p.playing || !HasCurve(route) ==> r == p)
            && (speed >= 0.0 && delta >= 0.0 && p.progress <= 1.0 ==> p.progress <= r.progress <= 1.0)
            && (p.playing && HasCurve(route) ==> r.progress <= 1.0 && (r.playing <==> r.progress < 1.0))
  {
    if p.playing && HasCurve(route) && speed >= 0.0 && delta >= 0.0 {
      DivideNonNegative(speed, delta, curveLength);
    }
  }

  /** A frame while playing along a curve, with the fraction it advances named. */
  lemma TickPlaying(p: Player, route: seq<Key>, curveLength: real, speed: real, delta: real, a: real)
    requires curveLength > 0.0 && p.playing && HasCurve(route)
    requires a == speed * delta / curveLength
    ensures Tick(p, route, curveLength, speed, delta) == Player(Min(1.0, p.progress + a), Min(1.0, p.progress + a) < 1.0)
  {
  }

  /** The Start button: only starts when there is a curve to play. */
  function Start(p: Player, route: seq<Key>): (r: Player)
    ensures r.progress == p.progress
    ensures r.playing <==> p.playing || HasCurve(route)
  {
    if HasCurve(route) then p.(playing := true) else p
  }

  /** The Stop button: pauses where the marker is. */
  function Stop(p: Player): (r: Player)
    ensures !r.playing && r.progress == p.progress
  {
    p.(playing := false)
  }

  /** The Reset button: back to the beginning, not playing. */
  function Reset(p: Player): (r: Player)
    ensures r == Initial
  {
    Player(0.0, false)
  }

  /** A recomputed route rewinds the progress; the playing flag is left as it was. */
  function Rewind(p: Player): (r: Player)
    ensures r.progress == 0.0 && r.playing == p.playing
  {
    p.(progress := 0.0)
  }

  /** Finished: at the end of the curve and no longer playing. */
  predicate Finished(p: Player) {
    p.progress == 1.0 && !p.playing
  }

  // ---------------------------------------------------------------------------
  // Runs of frames

  /** Frames of the given durations, in order. */
  function TickAll(p: Player, route: seq<Key>, curveLength: real, speed: real, deltas: seq<real>): Player
    requires curveLength > 0.0
    decreases |deltas|
  {
    if |deltas| == 0 then p
    else TickAll(Tick(p, route, curveLength, speed, deltas[0]), route, curveLength, speed, deltas[1..])
  }

  function Sum(deltas: seq<real>): real
    decreases |deltas|
  {
    if |deltas| == 0 then 0.0 else deltas[0] + Sum(deltas[1..])
  }

  predicate AllNonNegative(deltas: seq<real>) {
    forall i :: 0 <= i < |deltas| ==> deltas[i] >= 0.0
  }

  lemma {:induction false} SumNonNegative(deltas: seq<real>)
    requires AllNonNegative(deltas)
    ensures Sum(deltas) >= 0.0
    decreases |deltas|
  {
    if |deltas| > 0 {
      SumNonNegative(deltas[1..]);
    }
  }

  /** A paused (or curve-less) player is frozen: no run of frames changes it. */
  lemma {:induction false} PausedFrozen(p: Player, route: seq<Key>, curveLength: real, speed: real, deltas: seq<real>)
    requires curveLength > 0.0
    requires !p.playing || !HasCurve(route)
    ensures TickAll(p, route, curveLength, speed, deltas) == p
    decreases |deltas|
  {
    if |deltas| > 0 {
      PausedFrozen(Tick(p, route, curveLength, speed, deltas[0]), route, curveLength, speed, deltas[1..]);
    }
  }

  /** After Stop or Reset, frames leave the player untouched; a finished player stays finished. */
  lemma StopResetFrozen(p: Player, route: seq<Key>, curveLength: real, speed: real, deltas: seq<real>)
    requires curveLength > 0.0
    ensures TickAll(Stop(p), route, curveLength, speed, deltas) == Stop(p)
    ensures TickAll(Reset(p), route, curveLength, speed, deltas) == Initial
    ensures Finished(p) ==> TickAll(p, route, curveLength, speed, deltas) == p
  {
    PausedFrozen(Stop(p), route, curveLength, speed, deltas);
    PausedFrozen(Reset(p), route, curveLength, speed, deltas);
    if Finished(p) {
      PausedFrozen(p, route, curveLength, speed, deltas);
    }
  }

  lemma DivideSum(speed: real, a: real, b: real, len: real)
    requires len > 0.0
    ensures speed * (a + b) / len == speed * a / len + speed * b / len
  {
  }

  lemma DivideNonNegative(speed: real, a: real, len: real)
    requires len > 0.0 && speed >= 0.0 && a >= 0.0
    ensures speed * a / len >= 0.0
  {
  }

  /** The fraction of the curve each frame covers. */
  function Fractions(speed: real, deltas: seq<real>, len: real): (fs: seq<real>)
    requires len > 0.0
    ensures |fs| == |deltas|
    decreases |deltas|
  {
    if |deltas| == 0 then [] else [speed * deltas[0] / len] + Fractions(speed, deltas[1..], len)
  }

  /** Reference run: playing forward by given fractions, capped at the end of the curve. */
  function Advance(p: Player, fs: seq<real>): Player
    decreases |fs|
  {
    if |fs| == 0 || !p.playing then p
    else
      var q := Min(1.0, p.progress + fs[0]);
      Advance(Player(q, q < 1.0), fs[1..])
  }

  /** Frames along a curve advance by their fractions of the curve's length. */
  lemma {:induction false} TickAllAdvances(p: Player, route: seq<Key>, curveLength: real, speed: real,
                                          deltas: seq<real>)
    requires curveLength > 0.0 && HasCurve(route)
    ensures TickAll(p, route, curveLength, speed, deltas) == Advance(p, Fractions(speed, deltas, curveLength))
    decreases |deltas|
  {
    if |deltas| > 0 {
      var fs := Fractions(speed, deltas, curveLength);
      var q := Tick(p, route, curveLength, speed, deltas[0]);
      if p.playing {
        TickPlaying(p, route, curveLength, speed, deltas[0], fs[0]);
      } else {
        PausedFrozen(q, route, curveLength, speed, deltas[1..]);
      }
      assert fs[1..] == Fractions(speed, deltas[1..], curveLength);
      TickAllAdvances(q, route, curveLength, speed, deltas[1..]);
    }
  }

  /** The fractions add up to the fraction of the total elapsed time. */
  lemma {:induction false} FractionsSum(speed: real, deltas: seq<real>, len: real)
    requires len > 0.0
    ensures Sum(Fractions(speed, deltas, len)) == speed * Sum(deltas) / len
    decreases |deltas|
  {
    if |deltas| > 0 {
      var fs := Fractions(speed, deltas, len);
      assert fs[1..] == Fractions(speed, deltas[1..], len);
      FractionsSum(speed, deltas[1..], len);
      DivideSum(speed, deltas[0], Sum(deltas[1..]), len);
    }
  }

  lemma {:induction false} FractionsNonNegative(speed: real, deltas: seq<real>, len: real)
    requires len > 0.0 && speed >= 0.0 && AllNonNegative(deltas)
    ensures AllNonNegative(Fractions(speed, deltas, len))
    decreases |deltas|
  {
    if |deltas| > 0 {
      assert AllNonNegative(deltas[1..]);
      FractionsNonNegative(speed, deltas[1..], len);
      DivideNonNegative(speed, deltas[0], len);
      var fs := Fractions(speed, deltas, len);
      assert fs[1..] == Fractions(speed, deltas[1..], len);
      assert forall i :: 1 <= i < |fs| ==> fs[i] == fs[1..][i - 1];
    }
  }

  /** The reference run while playing: the progress is the capped total of the fractions, and
      playing continues exactly while the end is not reached. */
  lemma {:induction false} AdvanceClosedForm(p: Player, fs: seq<real>)
    requires p.playing && p.progress <= 1.0 && AllNonNegative(fs)
    ensures Advance(p, fs).progress == Min(1.0, p.progress + Sum(fs))
    ensures |fs| > 0 ==> (Advance(p, fs).playing <==> Advance(p, fs).progress < 1.0)
    decreases |fs|
  {
    if |fs| > 0 {
      var rest := fs[1..];
      assert AllNonNegative(rest);
      SumNonNegative(rest);
      assert Sum(fs) == fs[0] + Sum(rest);
      var q := Min(1.0, p.progress + fs[0]);
      if q < 1.0 {
        AdvanceClosedForm(Player(q, true), rest);
      }
    }
  }

  /** While playing along a curve, a run of frames lands exactly where the total elapsed
      time says, capped at the end of the curve, and stops playing once it gets there. */
  lemma TickAllClosedForm(p: Player, route: seq<Key>, curveLength: real, speed: real, deltas: seq<real>)
    requires curveLength > 0.0 && speed >= 0.0 && AllNonNegative(deltas)
    requires p.playing && p.progress <= 1.0 && HasCurve(route)
    ensures var r := TickAll(p, route, curveLength, speed, deltas);
            && r.progress == Min(1.0, p.progress + speed * Sum(deltas) / curveLength)
            && (|deltas| > 0 ==> (r.playing <==> r.progress < 1.0))
  {
    var fs := Fractions(speed, deltas, curveLength);
    TickAllAdvances(p, route, curveLength, speed, deltas);
    FractionsSum(speed, deltas, curveLength);
    FractionsNonNegative(speed, deltas, curveLength);
    AdvanceClosedForm(p, fs);
  }

  /** Enough elapsed time always brings playback to the end of the curve, and stops it there. */
  lemma PlaysToEnd(p: Player, route: seq<Key>, curveLength: real, speed: real, deltas: seq<real>)
    requires curveLength > 0.0 && speed >= 0.0 && AllNonNegative(deltas)
    requires p.playing && p.progress <= 1.0 && HasCurve(route) && |deltas| > 0
    requires p.progress + speed * Sum(deltas) / curveLength >= 1.0
    ensures Finished(TickAll(p, route, curveLength, speed, deltas))
  {
    var fs := Fractions(speed, deltas, curveLength);
    TickAllAdvances(p, route, curveLength, speed, deltas);
    FractionsSum(speed, deltas, curveLength);
    FractionsNonNegative(speed, deltas, curveLength);
    AdvanceClosedForm(p, fs);
  }


  // ---------------------------------------------------------------------------
  // The whole view

  /** The view's state: the current route, its curve's arc length, and the player. */
  datatype View = View(route: seq<Key>, curveLength: real, player: Player)

  /** Things that happen to the view. A route change carries the new route and its curve's length. */
  datatype Event =
    | StartPressed
    | StopPressed
    | ResetPressed
    | Frame(speed: real, delta: real)
    | RouteChanged(route: seq<Key>, curveLength: real)

  /** An event the view can meet: frames move forward in time at a non-negative speed, and every
      curve has a positive length. */
  predicate Admissible(ev: Event) {
    match ev
    case Frame(speed, delta) => speed >= 0.0 && delta >= 0.0
    case RouteChanged(_, len) => len > 0.0
    case _ => true
  }

  ghost predicate Valid(v: View) {
    v.curveLength > 0.0 && 0.0 <= v.player.progress <= 1.0
  }

  function Apply(v: View, ev: Event): View
    requires v.curveLength > 0.0 && Admissible(ev)
  {
    match ev
    case StartPressed => v.(player := Start(v.player, v.route))
    case StopPressed => v.(player := Stop(v.player))
    case ResetPressed => v.(player := Reset(v.player))
    case Frame(speed, delta) => v.(player := Tick(v.player, v.route, v.curveLength, speed, delta))
    case RouteChanged(route, len) => View(route, len, Rewind(v.player))
  }

  /** Every admissible event keeps the progress within the curve. */
  lemma ApplyValid(v: View, ev: Event)
    requires Valid(v) && Admissible(ev)
    ensures Valid(Apply(v, ev))
  {
  }

  function Run(v: View, evs: seq<Event>): View
    requires v.curveLength > 0.0 && forall i :: 0 <= i < |evs| ==> Admissible(evs[i])
    decreases |evs|
  {
    if |evs| == 0 then v
    else
      ApplyValidLength(v, evs[0]);
      Run(Apply(v, evs[0]), evs[1..])
  }

  lemma ApplyValidLength(v: View, ev: Event)
    requires v.curveLength > 0.0 && Admissible(ev)
    ensures Apply(v, ev).curveLength > 0.0
  {
  }

  /** The progress stays within [0, 1] over any run of admissible events. */
  lemma {:induction false} RunValid(v: View, evs: seq<Event>)
    requires Valid(v) && forall i :: 0 <= i < |evs| ==> Admissible(evs[i])
    ensures Valid(Run(v, evs))
    decreases |evs|
  {
    if |evs| > 0 {
      ApplyValid(v, evs[0]);
      RunValid(Apply(v, evs[0]), evs[1..]);
    }
  }

  /** A new start or destination: recompute the route and rewind. With the same start and
      destination the route has no curve, so there is nothing to play. */
  method ChangeRoute(nodes: NodeMap, edges: seq<Edge>, start: Key, end: Key, p: Player)
    returns (route: seq<Key>, r: Player)
    requires nodes.Valid()
    ensures r.progress == 0.0 && r.playing == p.playing
    ensures end != "" ==> |route| >= 1 && route[|route| - 1] == end
    ensures start == end ==> !HasCurve(route)
    ensures Dijkstra.NoEmptyKey(nodes, start) ==>
              (HasCurve(route) <==> start != end && Reachable(edges, Dijkstra.Known(nodes, start), start, end))
  {
    route := Dijkstra.ShortestRoute(nodes, edges, start, end);
    r := Rewind(p);
  }
}

=== FILE: reals.dfy ===
/** `Math.min` and `Math.max` of two numbers, over exact reals. */
module Reals {

  function Min(a: real, b: real): real {
    if a <= b then a else b
  }

  function Max(a: real, b: real): real {
    if a >= b then a else b
  }
}

=== FILE: wrappers.dfy ===
/** The conventional optional-value datatype: `None` plays the part of JavaScript's
    `null` / `undefined` results. */
module Wrappers {

  datatype Option<+T> = None | Some(value: T)
}
